=== FILE: README.md ===
# ImageViewer viewport model

A Dafny model of the ImageViewer component. ImageViewer draws one image on a
canvas inside a workspace and lets the user pan it by dragging and zoom it
with a range slider. A zoom can also be animated along an easing curve.
Filters (`rgb`, `brightness`) transform the pixels, and every redraw replays
the filter history. The model covers:

- the viewport arithmetic of `js/ImageViewer.js`: the fit-to-workspace
  display size, the offset band and its clamp, recentring about the workspace
  centre, the guarded `zoom`, dragging, load-time centring and the slider
  mapping (`viewport.dfy`);
- the animated pan `animateZoom` / `animateFrame` and the polynomial easing
  curves (`animation.dfy`, `easing.dfy`);
- the filter history and the per-channel pixel filters (`filters.dfy`);
- the range slider of `js/components/RangeSlider.js` (`range_slider.dfy`);
- the older concatenated build `js/ImageViewer.build.js`: its `extend` and
  `proxy` helpers, its clamp, its zoom and its slider mapping (`legacy.dfy`).

The model works on state. Sizes and offsets are `real`. A viewer is an
immutable record, and every handler is a pure function from one record to
the next. Painting is modelled only as a count of redraws. Wall-clock time
becomes a sequence of ticks that are either due or not. The DOM measurements
(workspace size, slider track position) are parameters.

The viewer record carries a `fit` field that says which `setSize` it runs.
`AsWritten` is the source's algorithm. `Corrected` is the repaired fit from
the first finding below. Every viewer operation is stated for both. The source
is the `AsWritten` viewer. With that fit, an overflowing display can leave the
unclamped load offset outside the band (`Viewport.LoadLeavesBand`). So the
load is proved consistent only when the display fits the workspace.

Behaviour of the code that is easy to misread:

- `zoom(amount)` with no target always redraws. Its no-op guard compares the
  `undefined` target with the current offset, which is never equal (see
  `Viewport.ZoomWithoutTargetRedraws`). The guard only skips work when the
  scale is unchanged and both targets equal the current offset.
- The slider's `value(v)` setter stores `v` unclamped.
- `animateZoom` ignores its `amount` argument. Only the offset is animated,
  and the scale stays as it was.
- The initial offset of an image below scale 1 centres it within the display
  (canvas) size, not within the workspace.
- The in-out quadratic curve is registered under the key `easInOutQuad`.

## Model

| member | source | states |
|---|---|---|
| Easing.Lookup | js/ImageViewer.js:400-462 | a name finds the curve registered under exactly that key, and finds nothing for a key no curve has |
| Easing.LookupKey | js/ImageViewer.js:400-462 | every curve is found again under its own registry key |
| Easing.Linear | js/ImageViewer.js:401-403 | the linear tween starts at `b` at step 0 and reaches `b + c` at step `d` |
| Easing.OutCubic | js/ImageViewer.js:404-408 | the cubic ease-out starts at `b` and ends at `b + c` |
| Easing.InQuad | js/ImageViewer.js:409-412 | the quadratic ease-in starts at `b` and ends at `b + c` |
| Easing.OutQuad | js/ImageViewer.js:413-416 | the quadratic ease-out starts at `b` and ends at `b + c` |
| Easing.InOutQuad | js/ImageViewer.js:417-422 | the quadratic ease-in-out starts at `b` and ends at `b + c` |
| Easing.InCubic | js/ImageViewer.js:423-426 | the cubic ease-in starts at `b` and ends at `b + c` |
| Easing.InOutCubic | js/ImageViewer.js:427-432 | the cubic ease-in-out starts at `b` and ends at `b + c` |
| Easing.InQuart | js/ImageViewer.js:433-436 | the quartic ease-in starts at `b` and ends at `b + c` |
| Easing.OutQuart | js/ImageViewer.js:437-441 | the quartic ease-out starts at `b` and ends at `b + c` |
| Easing.InOutQuart | js/ImageViewer.js:442-447 | the quartic ease-in-out starts at `b` and ends at `b + c` |
| Easing.InQuint | js/ImageViewer.js:448-451 | the quintic ease-in starts at `b` and ends at `b + c` |
| Easing.OutQuint | js/ImageViewer.js:452-456 | the quintic ease-out starts at `b` and ends at `b + c` |
| Easing.InOutQuint | js/ImageViewer.js:457-462 | the quintic ease-in-out starts at `b` and ends at `b + c` |
| Easing.Ease | js/ImageViewer.js:400-462 | whichever curve is chosen, the animation starts at its start value and ends at start plus change |
| Viewport.SetSizeAsWritten | js/ImageViewer.js:111-146 | `setSize` as written: an image that fits keeps its size; otherwise the result keeps the original aspect ratio and pins its width when the capped width exceeds the capped height, else its height |
| Viewport.SetSizeCanOverflow | js/ImageViewer.js:128-137 | a 1000x3000 image in an 800x600 workspace gets an 800x2400 display, which does not fit |
| Viewport.FitSize | js/ImageViewer.js:111-146 | the corrected fit: an image that fits keeps its size; otherwise the result fits in the workspace and in the original, and touches a workspace edge |
| Viewport.FitSizeKeepsRatio | js/ImageViewer.js:133-137 | the corrected fit keeps the original aspect ratio |
| Viewport.AsWrittenAgreesWhenItFits | js/ImageViewer.js:111-146 | whenever the as-written result fits the workspace, it equals the corrected one |
| Viewport.Saturate | js/ImageViewer.js:251-261 | the min/max saturation lands in the band, keeps an in-band value, and maps values below or above to the nearer end |
| Viewport.ClampAxis | js/ImageViewer.js:251-261 | the clamped axis offset is in the band of the displayed image, and a given in-band value is kept |
| Viewport.ClampAxisIdempotent | js/ImageViewer.js:251-261 | clamping a clamped value again changes nothing |
| Viewport.ClampAxisDefaultsToOffset | js/ImageViewer.js:253 | with no value, clamping works on the axis's current offset |
| Viewport.Clamp | js/ImageViewer.js:245-249 | only the offset changes, both axes end in band, and in-band targets are kept |
| Viewport.ClampKeepsBandedOffset | js/ImageViewer.js:245-261 | clamping a viewer whose offset is already in band leaves it unchanged |
| Viewport.SetCenterAxis | js/ImageViewer.js:153-162 | recentring scales the offset's distance from the workspace centre by the ratio of new to previous scale, and is the identity when the scale is unchanged |
| Viewport.AboutCentreKeepsAnchor | js/ImageViewer.js:153-162 | the fraction of the image that sits at the workspace centre is the same before and after the recentring |
| Viewport.AboutCentreSameScale | js/ImageViewer.js:153-162 | recentring at an unchanged scale does not move the offset |
| Viewport.AboutCentreRoundTrip | js/ImageViewer.js:153-162 | zooming from scale a to b and back to a restores the offset |
| Viewport.Zoom | js/ImageViewer.js:188-201 | the new scale and previous scale are recorded; a call at the same scale with both targets equal to the offset only records them; any other call redraws, resizes the display with the viewer's `setSize`, and clamps the recentred or given target into the band |
| Viewport.ZoomKeepsConsistent | js/ImageViewer.js:188-201 | under either fit, a zoom to a positive scale keeps the display equal to that fit's `setSize` result and the offset in band |
| Viewport.ZoomInPlace | js/ImageViewer.js:188-201 | zooming to an in-band target at the current scale moves the offset exactly onto the target |
| Viewport.ZoomWithoutTargetRedraws | js/ImageViewer.js:188-201 | a zoom with no target redraws even when the scale is unchanged |
| Viewport.CentreOffsetCentres | js/ImageViewer.js:99-102 | the load-time offset leaves equal margins on both sides of the scaled image |
| Viewport.CentreOffsetInBand | js/ImageViewer.js:99-102 | the load-time offset is inside the band when the display fits the workspace |
| Viewport.CentredOffsetInBand | js/ImageViewer.js:97-102 | whenever the display fits the workspace, both axes of the load-time offset are in band |
| Viewport.OnLoad | js/ImageViewer.js:90-109 | the loaded viewer stores the given options, workspace and image size; its display is the chosen fit's `setSize` result; it is at the minimum scale (also as previous scale), not dragging, with empty history, one redraw and the unclamped centred offset |
| Viewport.LoadKeepsConsistent | js/ImageViewer.js:97-103 | the loaded viewer is consistent whenever its display fits the workspace, and always under the corrected fit |
| Viewport.LoadLeavesBand | js/ImageViewer.js:97-103 | the source's load of a 1000x3000 image into an 800x600 workspace gives an 800x2400 display and offset (120, 360), whose y lies outside the band |
| Viewport.LoadExample | js/ImageViewer.js:90-109 | a 2000x1000 image in an 800x600 workspace under the defaults gets an 800x400 display, scale 0.7 and offset (120, 60) |
| Viewport.Draw | js/ImageViewer.js:163-168 | a redraw counts one more paint and changes nothing else; the history it replays keeps the number and names of its entries |
| Viewport.PointerDown | js/ImageViewer.js:264-270 | a press starts a drag at the pointer and changes nothing else |
| Viewport.PointerMove | js/ImageViewer.js:272-285 | without a drag nothing changes; during a drag only the display, offset, last pointer and paint count change: the display is resized with the viewer's `setSize`, the offset moves by the pointer delta and is clamped into the band, and a consistent viewer stays consistent |
| Viewport.PointerUp | js/ImageViewer.js:287-292 | a release applies the last move and ends the drag |
| Viewport.DragFollowsPointer | js/ImageViewer.js:272-285 | an in-band move during a drag shifts the offset by exactly the pointer delta |
| Viewport.SliderScale | js/ImageViewer.js:294-305 | 0 percent maps to the minimum scale, 100 percent to the maximum, and percents in between stay in range |
| Viewport.SliderScaleMonotone | js/ImageViewer.js:299-303 | a larger percent never gives a smaller scale |
| Viewport.SliderScaleRoundTrip | js/ImageViewer.js:299-303 | the scale of a percent maps back to that percent |
| Viewport.OnSliderChange | js/ImageViewer.js:299-303 | a slider change zooms to the mapped scale with no target, so it always redraws and leaves the offset in band |
| Viewport.SliderChangeKeepsConsistent | js/ImageViewer.js:299-303 | a slider change within [0, 100] keeps a consistent viewer consistent |
| Viewport.ApplyFilter | js/ImageViewer.js:321-341 | an unknown filter is an error; a known one changes only the history, by appending its entry unless told not to |
| Viewport.ApplyFilterKeepsConsistent | js/ImageViewer.js:321-341 | a successful filter keeps a consistent viewer consistent |
| Viewport.NewHistoryConsistent | js/ImageViewer.js:321-341 | replacing the history by one of known filters keeps the viewer consistent |
| Filters.ApplyFilter | js/ImageViewer.js:321-341 | unknown name is an error carrying the name; otherwise the old history is a prefix and the new entry is appended unless suppressed |
| Filters.ApplyFilterKeepsKnown | js/ImageViewer.js:321-341 | a history built from successful calls names only known filters |
| Filters.ApplyFilterHistory | js/ImageViewer.js:348-353 | replaying the history succeeds exactly when every entry is known, replays every entry and keeps the number and names of the history's entries; a failure stops at the first unknown entry, after replaying the known ones before it |
| Filters.ColorNamed | js/ImageViewer.js:375-379 | "red", "green" and "blue" name channels 0, 1 and 2, and no other name does |
| Filters.Store | js/ImageViewer.js:381-382 | a write to the pixel buffer saturates into [0, 255] and keeps a byte unchanged |
| Filters.AddTo | js/ImageViewer.js:373-396 | the reference shift touches only the listed channels, stores bytes there, and keeps a byte buffer a byte buffer |
| Filters.Rgb | js/ImageViewer.js:373-386 | the `rgb` filter shifts exactly the named channel of each pixel, and an unknown colour leaves the buffer as it was |
| Filters.Brightness | js/ImageViewer.js:388-396 | the `brightness` filter shifts red, green and blue of each pixel and never touches alpha |
| Filters.AddToUndo | js/ImageViewer.js:381-382 | a shift and its opposite cancel when nothing saturated |
| Filters.SaturationIsLossy | js/ImageViewer.js:391-393 | brightening a near-white pixel by 10 and darkening it by 10 loses its red value |
| Filters.AddToCompose | js/ImageViewer.js:373-396 | shifts of disjoint channels by the same amount compose into one shift |
| Filters.BrightnessIsThreeShifts | js/ImageViewer.js:388-396 | brightness equals the red, green and blue `rgb` shifts in turn |
| Animation.Ceil | js/ImageViewer.js:220 | the ceiling is the least integer not below its argument |
| Animation.Iterations | js/ImageViewer.js:214-220 | the step count covers the larger axis distance at 4 ms per pixel in 20 ms frames, and is 0 exactly when there is nothing to travel |
| Animation.AnimateZoom | js/ImageViewer.js:205-226 | the plan starts at the current offset, aims at the clamped targets, starts at step 0 with the computed step count, and uses the curve registered under the configured key, having none exactly when no curve has that key |
| Animation.Destination | js/ImageViewer.js:234-235 | the eased position is the start at step 0 and the target at the last step |
| Animation.FrameAsWritten | js/ImageViewer.js:228-243 | `animateFrame` as written: a tick that is not due only reschedules; a due tick with no curve or zero steps fails; otherwise it zooms to the eased destination of the current step and then counts it |
| Animation.AsWrittenStopsShort | js/ImageViewer.js:232-242 | on a linear pan the last due tick aims short of the target and schedules no further frame |
| Animation.AsWrittenZeroDistanceIsNaN | js/ImageViewer.js:220-235 | an animation to the current offset has zero steps, and its first due tick divides 0 by 0 |
| Animation.Frame | js/ImageViewer.js:228-243 | the corrected frame: a due tick advances one step and zooms to the eased destination of the next step; an undue tick changes nothing; it fails only when a due step has no curve |
| Animation.FrameStep | js/ImageViewer.js:228-243 | one corrected frame keeps the viewer consistent at the same scale, advances the step on a due tick, and lands on the target at the last step |
| Animation.Run | js/ImageViewer.js:228-243 | driving the frames with ticks counts the due ones; once all steps ran the offset is exactly on the target, and it fails only when a step is due with no curve |
| RangeSlider.New | js/components/RangeSlider.js:25-65 | a new slider reads 0 percent, is not sliding, and has its empty end at the bottom edge when vertical and the left edge when horizontal |
| RangeSlider.OffsetToPercent | js/components/RangeSlider.js:78-82 | the percent is never negative, and is positive exactly when the pointer is past the empty end in the filling direction |
| RangeSlider.OffsetToPercentRoundTrip | js/components/RangeSlider.js:78-82 | pointing at the position of k percent reads back k, in both orientations |
| RangeSlider.Set | js/components/RangeSlider.js:84-89 | the raw percent is stored, and the callback gets it saturated into [0, 100] |
| RangeSlider.StartSlide | js/components/RangeSlider.js:67-72 | a press starts sliding and sets the value |
| RangeSlider.MoveSlide | js/components/RangeSlider.js:74-76 | a move sets the value only while sliding, and otherwise notifies nothing |
| RangeSlider.StopSlide | js/components/RangeSlider.js:91-93 | a release ends sliding and touches nothing else |
| RangeSlider.NoMoveAfterStop | js/components/RangeSlider.js:74-93 | after a release, moves change nothing and notify nothing |
| RangeSlider.Value | js/components/RangeSlider.js:97 | the `value()` getter reads the stored percent as it is, without saturating it (its behaviour after a slide is stated by RangeSlider.ValueAfterSet, after `value(v)` by RangeSlider.SetValue) |
| RangeSlider.ValueAfterSet | js/components/RangeSlider.js:84-97 | after `set` the `value()` getter reads the raw percent, and it differs from what the callback received exactly when it exceeds 100 |
| RangeSlider.SetValue | js/components/RangeSlider.js:95-106 | the setter stores the value unclamped, so the getter reads it back; the callback gets exactly the value unless the trigger is false |
| RangeSlider.DragSequence | js/components/RangeSlider.js:67-93 | in either orientation, press, move and release leave the percent of the last move and no drag in progress |
| Legacy.Extend | js/ImageViewer.build.js:9-15 | a key ends with the value of the last source holding it; a key in no source keeps the target's value; the keys are the target's and the sources' |
| Legacy.ExtendKeepsUntouched | js/ImageViewer.build.js:9-15 | a key held by no source is left exactly as the target had it |
| Legacy.OptionsOverrideDefaults | js/ImageViewer.build.js:167-181 | merging options onto defaults: a given option wins, and a missing one keeps its default |
| Legacy.ExtendSplits | js/ImageViewer.build.js:9-15 | extending with two lists of sources in turn equals extending once with both |
| Legacy.Call | js/ImageViewer.build.js:37-43 | a proxied call runs the function on the bound receiver, or the call's receiver when none is bound, with the bound arguments first |
| Legacy.BoundReceiverWins | js/ImageViewer.build.js:37-43 | with a bound receiver the call's receiver is irrelevant |
| Legacy.ProxyComposes | js/ImageViewer.build.js:37-43 | when the inner proxy has a bound receiver, proxying it again appends the outer bound arguments after the inner ones |
| Legacy.ClampAxis | js/ImageViewer.build.js:329-350 | above scale 1 the axis lands in [-delta, 0]; at or below 1 it lands in [0, delta] with `dragSmall`, and otherwise both axes are centred whatever the input; an in-range truthy value is kept, and a value outside the range lands on its nearer end |
| Legacy.FalsyMeansCurrent | js/ImageViewer.build.js:331 | an undefined or zero value clamps the current offset |
| Legacy.Clamp | js/ImageViewer.build.js:322-350 | both axes land in the band of the scale case, a target (or current offset) outside it lands on the nearer end, and only the offset changes |
| Legacy.ClampSettles | js/ImageViewer.build.js:322-350 | clamping a clamped viewer with no targets changes nothing |
| Legacy.Zoom | js/ImageViewer.build.js:311-320 | only the scale, display and offset change: the scale is set, the display is resized as written, and the offset lands in the band of the scale case |
| Legacy.ZoomTakesTargets | js/ImageViewer.build.js:311-350 | where the band applies, each axis lands on a truthy in-band target, and with a falsy target an in-band current offset stays where it was |
| Legacy.ZoomIgnoresZero | js/ImageViewer.build.js:315-316 | a zero target is treated like no target |
| Legacy.PointerMove | js/ImageViewer.build.js:360-373 | without a drag nothing changes; during a drag only the display, offset and last pointer change: the display is resized as written, the pointer is recorded and the moved offset lands in the band of the scale case, or is pinned to the centre at or below scale 1 without `dragSmall`; a move that stays in the band shifts the offset by exactly the pointer's motion |
| Legacy.ClampKeepsBandedOffset | js/ImageViewer.build.js:322-350 | above scale 1, or with `dragSmall`, clamping an offset that already lies in the band with no targets changes nothing |
| Legacy.SliderScale | js/ImageViewer.build.js:387-391 | 0 percent maps to the minimum scale, 100 percent to one more than it |
| Legacy.SliderScaleRoundTrip | js/ImageViewer.build.js:389 | the legacy percent-to-scale mapping and its inverse undo each other |
| Legacy.SlidersCompared | js/ImageViewer.build.js:389 | the legacy and current sliders agree at 0 percent, agree at 100 exactly when the maximum is the minimum plus 1, and under the defaults the legacy one reaches 1.7 |

## Left out

- The sine, exponential and circular easing curves (js/ImageViewer.js:463-497) need transcendental functions. The registry lookup returns nothing for their keys.
- Filters.ApplyFilter: the source tests `this.filters[filter]`, which is also truthy for names the object inherits, such as "constructor" or "toString". For those the source records an entry, and then either succeeds or throws later. The model treats only the three defined filters as known and returns an error for every other name. That error carries the unknown name, while the source's error message does not.
- Viewport.ApplyFilter: it calls `Filters.ApplyFilter` and so shares its treatment of inherited names; for "constructor" or "toString" the source records an entry and the model returns an error.
- Easing.Lookup: the source indexes `easingFunctions` with the configured name, which also finds names the object inherits. For "constructor" each frame would pan to the step number, and for "hasOwnProperty" or "toString" to 0 or NaN. The model finds no curve for them, and the frame reports that the curve is not a function.
- Overlapping animations are not modelled. A second `animateZoom` during a running one starts a second frame loop, and the two share `prevTime` and the easing function. `Animation.Run` drives a single animation.
- The `onScale(percents)` callback after a slider change and the `onLoad(this)` callback after loading are user code and are not modelled.
- RangeSlider.SetValue: the trigger is absent, true or false. Other falsy triggers such as 0 or null also suppress the callback in the source, and they are not modelled.
- The `grayscale` filter computes a floating-point luminance and is not modelled.
- Filter modifiers are integers. The byte store's rounding of a fractional result is not modelled; its saturation into [0, 255] is.
- Canvas drawing, `darken`, `getImageLink`, image loading, listener setup and `destroy` are I/O. A redraw is a counter, and the load result is a parameter of `OnLoad`.
- `resetFilters` restores a pixel snapshot the component never records (`dataHistory` is never filled).
- The `filters` object holds `history` among its filter functions, and the history is shared by every viewer through the prototype. The model gives each viewer its own history, and `history` is not a known filter name.
- Filter arguments are recorded abstractly. Wrapping a lone argument in a list and prepending the image data to the argument list are not modelled. The history entry holds the same argument array that receives the image data, and the replay passes it back to `applyFilter`, which prepends again. So each redraw grows every stored argument list by one image, and from the first replay on `rgb` and `brightness` receive an image where their colour or modifier was. The model's entries keep their arguments as recorded.
- `percentageOfOriginal` (js/ImageViewer.js:144) is written but never read.
- `Math.round` on the eased destinations is not modelled, and neither are wall-clock times. Time is a sequence of ticks that are due or not.
- Operations called before load fail in the source with a type error. The model starts from a loaded viewer.
- `prevScale` is undefined until the first zoom. The model starts it equal to the scale.
- Sizes, offsets and scales are exact `real` numbers, while the source computes in IEEE-754 doubles. Some identities proved over `real` can be off by one unit in the last place in doubles:
  - Viewport.AboutCentreSameScale: exact over `real`; in doubles recentring at an unchanged scale can move the offset by one ulp (workspace 600, scale 1.5, offset -846.7056852276206 gives -846.7056852276205).
  - Viewport.SetCenterAxis: its identity at an unchanged scale is exact over `real` only, for the same reason.
  - Viewport.AboutCentreRoundTrip: exact over `real`; in doubles a zoom from 0.7 to 1.5 and back can miss the starting offset by rounding.
  - Viewport.ZoomWithoutTargetRedraws: the unchanged offset it states is exact over `real`; in doubles the recentred offset can differ by rounding.
- The canvas keeps whole pixels: assigning the `setSize` result to `canvas.width`/`canvas.height` (js/ImageViewer.js:142-143) drops any fraction, and the source reads the truncated size back. The model stores the exact result, so the source's display keeps the image's ratio only to within a pixel. For a 1234x567 image in an 800x600 workspace the source's canvas is 367 high and its load offset y is 55.05, while the model's display is 453600/1234 (about 367.59) high and its offset y about 55.14. The members that store or read the display:
  - Viewport.OnLoad: its display and centred offset use the untruncated size, where the source centres within the whole-pixel canvas (js/ImageViewer.js:102-103).
  - Viewport.Zoom: it stores the untruncated size, and the band it clamps into is measured on it, where the source measures the whole-pixel canvas (js/ImageViewer.js:256).
  - Viewport.PointerMove: it stores the untruncated size, as `Viewport.Zoom` does.
  - Legacy.Zoom: it stores the untruncated as-written size, and the centred offset below scale 1 is measured on it (js/ImageViewer.build.js:344-345).
  - Legacy.PointerMove: it stores the untruncated as-written size, as `Legacy.Zoom` does.
- NaN, infinities and non-positive sizes are not modelled beyond the one 0/0 case in the findings. Workspace and image sizes are taken positive.
- The slider's bar styling and its `setSize` DOM probing are not modelled. The track length and position are parameters of `RangeSlider.New`.
- The `offset()` DOM helper (js/ImageViewer.build.js:21-30) and the legacy `init`, `load` and `_onLoad` duplicate the current viewer's DOM work and are not modelled again.
- The RangeSlider copy inside js/ImageViewer.build.js:58-163 duplicates js/components/RangeSlider.js and is modelled once.
- Legacy.ClampAxis: JavaScript truthiness is modelled for `undefined` and 0 only, not for NaN.
- Legacy.Call: a bound receiver is given or absent. A falsy receiver such as 0 is not modelled, although the source would replace it with the call's receiver.
- Legacy.Extend: it returns a new map where the source mutates and returns the target. Inherited keys (skipped by `hasOwnProperty`) do not exist in a map.
- Easing.Ease: only the values at the first and last step are stated, not the curve's shape in between.
- Animation.Run: the intermediate positions of the pan are stated only through `Destination`, which is given at its end points. It also requires a consistent viewer, so it does not cover an animation started straight after an overflowing as-written load (`Viewport.LoadLeavesBand`), which the source allows.
- Gruntfile.js is build configuration.

## Findings

| source | as written | input that shows it | evidently intended | confidence | as-written member | corrected member |
|---|---|---|---|---|---|---|
| js/ImageViewer.js:133-137 | an image that exceeds the workspace keeps the larger of the capped width and height and derives the other from the ratio | a 1000x3000 image in an 800x600 workspace: caps 800 and 600, keeps width 800, derives height 2400 | scale by the smaller of the two ratios so the display fits the workspace | high, not executed | Viewport.SetSizeAsWritten, Viewport.SetSizeCanOverflow, Viewport.LoadLeavesBand | Viewport.FitSize |
| js/ImageViewer.js:232-242 | each due frame zooms to the eased position of the current step and then counts it, so the steps used are 0 to total-1 | a linear pan of 100 px over 20 steps: the last frame aims at 95 px and no frame follows | use steps 1 to total so the last frame lands on the target | high, not executed | Animation.FrameAsWritten, Animation.AsWrittenStopsShort | Animation.Frame, Animation.Run |
| js/ImageViewer.js:220-235 | an animation with zero distance has zero steps, yet the first due callback still evaluates the curve at 0 of 0 steps | `animateZoom` to the current offset: every curve divides 0 by 0 and the offset becomes NaN | do nothing when there are no steps | high, not executed | Animation.AsWrittenZeroDistanceIsNaN | Animation.Frame |

=== FILE: animation.dfy ===
/**
 * The animated pan of the viewer (`animateZoom` and `animateFrame` in
 * js/ImageViewer.js). Wall-clock time is abstracted: each scheduler callback
 * is a tick that is either due (at least one frame interval has passed since
 * the last step) or not. `Math.round` on the eased destinations is not
 * modelled.
 */
module Animation {
  import opened Wrappers
  import Easing
  import opened Viewport

  /** `animationFrameRate`: milliseconds between two steps. */
  const FrameInterval: real := 20.0
  /** `animationTimePerPixel`: milliseconds per pixel travelled. */
  const TimePerPixel: real := 4.0

  /** The state an animation frame carries from one callback to the next
      (the arguments `animateFrame` is bound to). */
  datatype Anim = Anim(
    startX: real, startY: real,
    x: real, y: real,          // the clamped targets
    dx: real, dy: real,        // the distances to travel
    iteration: nat, total: nat,
    curve: Option<Easing.Curve>)

  /** The targets are where the distances lead, and the count is in range. */
  predicate Planned(a: Anim) {
    a.x == a.startX + a.dx && a.y == a.startY + a.dy && a.iteration <= a.total
  }

  datatype FrameError =
    | NotAFunction   // the configured easing name is not in the registry
    | NotANumber     // an easing evaluated with zero total iterations

  /** What one scheduler callback leaves behind. */
  datatype Tick = Tick(viewer: Viewer, anim: Anim, again: bool)

  /** `Math.ceil` on reals. */
  function Ceil(r: real): (n: int)
    ensures r <= n as real < r + 1.0
  {
    if r == r.Floor as real then r.Floor else r.Floor + 1
  }

  /**
   * `totalIterations`: the longer of the two distances, at `TimePerPixel`
   * milliseconds a pixel, divided into frames of `FrameInterval` and rounded
   * up. No animation takes a step when nothing moves.
   */
  function Iterations(dx: real, dy: real): (n: nat)
    ensures var time := if Abs(dx) > Abs(dy) then Abs(dx) * TimePerPixel else Abs(dy) * TimePerPixel;
      time <= n as real * FrameInterval < time + FrameInterval
    ensures n == 0 <==> dx == 0.0 && dy == 0.0
  {
    var xTime := Abs(dx) * TimePerPixel;
    var yTime := Abs(dy) * TimePerPixel;
    var time := if xTime > yTime then xTime else yTime;
    Ceil(time / FrameInterval)
  }

  /**
   * `animateZoom(amount, x, y)`: clamp the targets (an omitted one is the
   * current offset), look the easing curve up and plan the steps from the
   * current offset. The `amount` argument is never read, so only the offset
   * is animated.
   */
  function AnimateZoom(v: Viewer, x: Option<real>, y: Option<real>): (a: Anim)
    ensures a.x == ClampAxis(v, X, x) && a.y == ClampAxis(v, Y, y)
    ensures InBand(v, X, a.x) && InBand(v, Y, a.y)
    ensures a.startX == v.offset.x && a.startY == v.offset.y
    ensures Planned(a) && a.iteration == 0 && a.total == Iterations(a.dx, a.dy)
    ensures a.curve.Some? ==> Easing.Key(a.curve.value) == v.options.easing
    ensures a.curve.None? <==> forall f: Easing.Curve :: Easing.Key(f) != v.options.easing
  {
    var tx := ClampAxis(v, X, x);
    var ty := ClampAxis(v, Y, y);
    var dx := tx - v.offset.x;
    var dy := ty - v.offset.y;
    Anim(v.offset.x, v.offset.y, tx, ty, dx, dy, 0, Iterations(dx, dy), Easing.Lookup(v.options.easing))
  }

  /** The eased position after `t` of the animation's steps. */
  function Destination(a: Anim, t: real): (p: Point)
    requires a.curve.Some? && a.total > 0
    ensures t == 0.0 ==> p == Point(a.startX, a.startY)
    ensures t == a.total as real ==> p == Point(a.startX + a.dx, a.startY + a.dy)
  {
    var d := a.total as real;
    Point(Easing.Ease(a.curve.value, t, a.startX, a.dx, d),
          Easing.Ease(a.curve.value, t, a.startY, a.dy, d))
  }

  /**
   * `animateFrame` as written: when due, move to the destination of the
   * current iteration and only then count it; reschedule while the count is
   * below the total. The first step therefore goes nowhere and the last one
   * stops one iteration short of the target.
   */
  function FrameAsWritten(v: Viewer, a: Anim, due: bool): (r: Result<Tick, FrameError>)
    requires Valid(v) && a.iteration <= a.total
    ensures !due ==> r == Ok(Tick(v, a, a.iteration < a.total))
    ensures due && a.curve.None? ==> r == Err(NotAFunction)
    ensures due && a.curve.Some? && a.total == 0 ==> r == Err(NotANumber)
    ensures due && a.curve.Some? && a.total > 0 ==>
      var p := Destination(a, a.iteration as real);
      && r.Ok?
      && r.value.viewer == Zoom(v, v.scale, Some(p.x), Some(p.y))
      && r.value.anim == a.(iteration := a.iteration + 1)
      && r.value.again == (a.iteration + 1 < a.total)
  {
    if !due then Ok(Tick(v, a, a.iteration < a.total))
    else if a.curve.None? then Err(NotAFunction)
    else if a.total == 0 then Err(NotANumber)
    else
      var p := Destination(a, a.iteration as real);
      var a' := a.(iteration := a.iteration + 1);
      Ok(Tick(Zoom(v, v.scale, Some(p.x), Some(p.y)), a', a'.iteration < a'.total))
  }

  /** The last step of the as-written loop aims short of the target: with the
      linear curve and a non-zero distance, the final destination is
      `total - 1` steps along, and no further frame is scheduled. */
  lemma AsWrittenStopsShort(v: Viewer, a: Anim)
    requires Valid(v) && Planned(a) && a.curve == Some(Easing.LinearTween)
    requires a.total > 0 && a.iteration + 1 == a.total && a.dx != 0.0
    ensures FrameAsWritten(v, a, true).Ok?
    ensures !FrameAsWritten(v, a, true).value.again
    ensures Destination(a, a.iteration as real).x != a.x
  {
    var d := a.total as real;
    var t := a.iteration as real;
    assert t == d - 1.0;
    var e := Easing.Ease(a.curve.value, t, a.startX, a.dx, d);
    assert e == a.dx * t / d + a.startX;
    assert a.dx * t / d == a.dx * (d - 1.0) / d;
    assert a.dx * (d - 1.0) / d == a.dx - a.dx / d;
    assert a.dx / d != 0.0;
  }

  /** A zero-distance animation whose first callback is due evaluates an
      easing curve at 0/0: the source's offset becomes NaN. */
  lemma AsWrittenZeroDistanceIsNaN(v: Viewer)
    requires Consistent(v) && Easing.Lookup(v.options.easing).Some?
    ensures AnimateZoom(v, None, None).total == 0
    ensures FrameAsWritten(v, AnimateZoom(v, None, None), true) == Err(NotANumber)
  {
  }

  /**
   * The corrected frame: a due callback counts the iteration first and then
   * moves to its destination, so the steps run 1..total and the last lands
   * on the target; a callback with nothing left to do changes nothing.
   */
  function Frame(v: Viewer, a: Anim, due: bool): (r: Result<Tick, FrameError>)
    requires Valid(v) && a.iteration <= a.total
    ensures r.Err? <==> due && a.iteration < a.total && a.curve.None?
    ensures r.Err? ==> r.error == NotAFunction
    ensures r.Ok? ==> r.value.anim == a.(iteration := r.value.anim.iteration)
    ensures r.Ok? ==> r.value.anim.iteration <= r.value.anim.total
    ensures r.Ok? ==> r.value.again == (r.value.anim.iteration < a.total)
    ensures r.Ok? && due && a.iteration < a.total ==>
      var p := Destination(a, (a.iteration + 1) as real);
      && r.value.anim.iteration == a.iteration + 1
      && r.value.viewer == Zoom(v, v.scale, Some(p.x), Some(p.y))
    ensures r.Ok? && !(due && a.iteration < a.total) ==> r.value.viewer == v && r.value.anim == a
  {
    if !due || a.iteration >= a.total then Ok(Tick(v, a, a.iteration < a.total))
    else if a.curve.None? then Err(NotAFunction)
    else
      var n := a.iteration + 1;
      var p := Destination(a, n as real);
      Ok(Tick(Zoom(v, v.scale, Some(p.x), Some(p.y)), a.(iteration := n), n < a.total))
  }

  /** How many of the ticks are due. */
  function CountDue(ticks: seq<bool>): nat {
    if ticks == [] then 0
    else CountDue(ticks[..|ticks| - 1]) + (if ticks[|ticks| - 1] then 1 else 0)
  }

  /** One corrected frame of a planned animation whose targets are in band
      keeps the viewer consistent at the same scale, and the frame that
      completes the animation puts the offset on the target. */
  lemma FrameStep(v: Viewer, w: Viewer, a: Anim, due: bool)
    requires Consistent(v) && Consistent(w) && Planned(a) && a.iteration < a.total
    requires w.scale == v.scale && w.fit == v.fit && w.workspace == v.workspace && w.original == v.original
    requires InBand(v, X, a.x) && InBand(v, Y, a.y)
    requires Frame(w, a, due).Ok?
    ensures var t := Frame(w, a, due).value;
      && Consistent(t.viewer)
      && t.viewer.scale == v.scale && t.viewer.fit == v.fit
      && t.viewer.workspace == v.workspace && t.viewer.original == v.original
      && t.anim == a.(iteration := t.anim.iteration)
      && t.anim.iteration == a.iteration + (if due then 1 else 0)
      && (t.anim.iteration == a.total ==> t.viewer.offset == Point(a.x, a.y))
  {
    if due {
      var p := Destination(a, (a.iteration + 1) as real);
      ZoomKeepsConsistent(w, w.scale, Some(p.x), Some(p.y));
      if a.iteration + 1 == a.total {
        SameBand(v, w, X, a.x);
        SameBand(v, w, Y, a.y);
        ZoomInPlace(w, p);
      }
    }
  }

  /**
   * Drive the corrected frames with a sequence of ticks until the animation
   * is done or the ticks run out. Every due tick advances the iteration by
   * one; once `total` ticks were due the offset is exactly on the target.
   */
  method Run(v: Viewer, a: Anim, ticks: seq<bool>) returns (r: Result<Tick, FrameError>, used: nat)
    requires Consistent(v) && Planned(a) && a.iteration == 0
    requires InBand(v, X, a.x) && InBand(v, Y, a.y)
    ensures used <= |ticks|
    ensures r.Err? <==> a.curve.None? && a.total > 0 && CountDue(ticks[..used]) > 0
    ensures r.Ok? ==> Consistent(r.value.viewer) && r.value.viewer.scale == v.scale
    ensures r.Ok? ==> r.value.anim == a.(iteration := r.value.anim.iteration)
    ensures r.Ok? ==> r.value.anim.iteration == CountDue(ticks[..used])
    ensures r.Ok? && r.value.anim.iteration < a.total ==> used == |ticks|
    ensures r.Ok? && r.value.anim.iteration == a.total && a.total > 0 ==>
      r.value.viewer.offset == Point(a.x, a.y)
  {
    var viewer := v;
    var anim := a;
    used := 0;
    while used < |ticks| && anim.iteration < anim.total
      invariant used <= |ticks|
      invariant Consistent(viewer)
      invariant viewer.scale == v.scale && viewer.fit == v.fit
      invariant viewer.workspace == v.workspace && viewer.original == v.original
      invariant anim == a.(iteration := anim.iteration) && anim.iteration <= a.total
      invariant anim.iteration == CountDue(ticks[..used])
      invariant a.curve.None? ==> anim.iteration == 0
      invariant anim.iteration == a.total && a.total > 0 ==> viewer.offset == Point(a.x, a.y)
    {
      var due := ticks[used];
      assert ticks[..used + 1][..used] == ticks[..used];
      var step := Frame(viewer, anim, due);
      if step.Err? {
        used := used + 1;
        return step, used;
      }
      FrameStep(v, viewer, anim, due);
      viewer := step.value.viewer;
      anim := step.value.anim;
      used := used + 1;
    }
    r := Ok(Tick(viewer, anim, anim.iteration < anim.total));
  }
}

=== FILE: easing.dfy ===
/**
 * The easing registry of the viewer (`easingFunctions` in js/ImageViewer.js).
 * Every curve maps (elapsed iteration t, start value b, change c, total
 * iterations d) to an interpolated value. Only the polynomial curves are
 * modelled; the sine, exponential and circular ones need transcendental
 * functions.
 */
module Easing {
  import opened Wrappers

  datatype Curve =
    | LinearTween
    | EaseOutCubic
    | EaseInQuad
    | EaseOutQuad
    | EaseInOutQuad
    | EaseInCubic
    | EaseInOutCubic
    | EaseInQuart
    | EaseOutQuart
    | EaseInOutQuart
    | EaseInQuint
    | EaseOutQuint
    | EaseInOutQuint

  /** The registry key of each curve, spelled as in the source (the in-out
      quadratic curve is registered as "easInOutQuad"). */
  function Key(f: Curve): string {
    match f
    case LinearTween => "linearTween"
    case EaseOutCubic => "easeOutCubic"
    case EaseInQuad => "easeInQuad"
    case EaseOutQuad => "easeOutQuad"
    case EaseInOutQuad => "easInOutQuad"
    case EaseInCubic => "easeInCubic"
    case EaseInOutCubic => "easeInOutCubic"
    case EaseInQuart => "easeInQuart"
    case EaseOutQuart => "easeOutQuart"
    case EaseInOutQuart => "easeInOutQuart"
    case EaseInQuint => "easeInQuint"
    case EaseOutQuint => "easeOutQuint"
    case EaseInOutQuint => "easeInOutQuint"
  }

  /** Looking a curve up by its registry key; `None` is the source's
      `undefined` for a key it does not hold. */
  function Lookup(name: string): (r: Option<Curve>)
    ensures r.Some? ==> Key(r.value) == name
    ensures r.None? ==> forall f: Curve :: Key(f) != name
  {
    if name == "linearTween" then Some(LinearTween)
    else if name == "easeOutCubic" then Some(EaseOutCubic)
    else if name == "easeInQuad" then Some(EaseInQuad)
    else if name == "easeOutQuad" then Some(EaseOutQuad)
    else if name == "easInOutQuad" then Some(EaseInOutQuad)
    else if name == "easeInCubic" then Some(EaseInCubic)
    else if name == "easeInOutCubic" then Some(EaseInOutCubic)
    else if name == "easeInQuart" then Some(EaseInQuart)
    else if name == "easeOutQuart" then Some(EaseOutQuart)
    else if name == "easeInOutQuart" then Some(EaseInOutQuart)
    else if name == "easeInQuint" then Some(EaseInQuint)
    else if name == "easeOutQuint" then Some(EaseOutQuint)
    else if name == "easeInOutQuint" then Some(EaseInOutQuint)
    else None
  }

  /** Every curve is found under its own key, so no two curves share one. */
  lemma LookupKey(f: Curve)
    ensures Lookup(Key(f)) == Some(f)
  {
  }

  /** The boundary law every registered curve keeps: it starts at `b` and
      ends at `b + c`. */
  ghost predicate Boundary(t: real, b: real, c: real, d: real, r: real) {
    (t == 0.0 ==> r == b) && (t == d ==> r == b + c)
  }

  function Linear(t: real, b: real, c: real, d: real): (r: real)
    requires d != 0.0
    ensures Boundary(t, b, c, d, r)
  {
    c * t / d + b
  }

  function OutCubic(t: real, b: real, c: real, d: real): (r: real)
    requires d != 0.0
    ensures Boundary(t, b, c, d, r)
  {
    var u := t / d - 1.0;
    c * (u * u * u + 1.0) + b
  }

  function InQuad(t: real, b: real, c: real, d: real): (r: real)
    requires d != 0.0
    ensures Boundary(t, b, c, d, r)
  {
    var u := t / d;
    c * u * u + b
  }

  function OutQuad(t: real, b: real, c: real, d: real): (r: real)
    requires d != 0.0
    ensures Boundary(t, b, c, d, r)
  {
    var u := t / d;
    -c * u * (u - 2.0) + b
  }

  function InOutQuad(t: real, b: real, c: real, d: real): (r: real)
    requires d != 0.0
    ensures Boundary(t, b, c, d, r)
  {
    var u := t / (d / 2.0);
    if u < 1.0 then c / 2.0 * u * u + b
    else
      var w := u - 1.0;
      -c / 2.0 * (w * (w - 2.0) - 1.0) + b
  }

  function InCubic(t: real, b: real, c: real, d: real): (r: real)
    requires d != 0.0
    ensures Boundary(t, b, c, d, r)
  {
    var u := t / d;
    c * u * u * u + b
  }

  function InOutCubic(t: real, b: real, c: real, d: real): (r: real)
    requires d != 0.0
    ensures Boundary(t, b, c, d, r)
  {
    var u := t / (d / 2.0);
    if u < 1.0 then c / 2.0 * u * u * u + b
    else
      var w := u - 2.0;
      c / 2.0 * (w * w * w + 2.0) + b
  }

  function InQuart(t: real, b: real, c: real, d: real): (r: real)
    requires d != 0.0
    ensures Boundary(t, b, c, d, r)
  {
    var u := t / d;
    c * u * u * u * u + b
  }

  function OutQuart(t: real, b: real, c: real, d: real): (r: real)
    requires d != 0.0
    ensures Boundary(t, b, c, d, r)
  {
    var u := t / d - 1.0;
    -c * (u * u * u * u - 1.0) + b
  }

  function InOutQuart(t: real, b: real, c: real, d: real): (r: real)
    requires d != 0.0
    ensures Boundary(t, b, c, d, r)
  {
    var u := t / (d / 2.0);
    if u < 1.0 then c / 2.0 * u * u * u * u + b
    else
      var w := u - 2.0;
      -c / 2.0 * (w * w * w * w - 2.0) + b
  }

  function InQuint(t: real, b: real, c: real, d: real): (r: real)
    requires d != 0.0
    ensures Boundary(t, b, c, d, r)
  {
    var u := t / d;
    c * u * u * u * u * u + b
  }

  function OutQuint(t: real, b: real, c: real, d: real): (r: real)
    requires d != 0.0
    ensures Boundary(t, b, c, d, r)
  {
    var u := t / d - 1.0;
    c * (u * u * u * u * u + 1.0) + b
  }

  function InOutQuint(t: real, b: real, c: real, d: real): (r: real)
    requires d != 0.0
    ensures Boundary(t, b, c, d, r)
  {
    var u := t / (d / 2.0);
    if u < 1.0 then c / 2.0 * u * u * u * u * u + b
    else
      var w := u - 2.0;
      c / 2.0 * (w * w * w * w * w + 2.0) + b
  }

  /**
   * The value of curve `f` after `t` of `d` iterations, starting at `b` and
   * travelling `c`. Each curve follows the source's reassignments of `t`
   * (`t /= d`, `t--`, `t /= d/2`, `t -= 2`). The source divides by `d`
   * unguarded; a zero `d` gives NaN there, so it is excluded here.
   */
  function Ease(f: Curve, t: real, b: real, c: real, d: real): (r: real)
    requires d != 0.0
    ensures Boundary(t, b, c, d, r)
  {
    match f
    case LinearTween => Linear(t, b, c, d)
    case EaseOutCubic => OutCubic(t, b, c, d)
    case EaseInQuad => InQuad(t, b, c, d)
    case EaseOutQuad => OutQuad(t, b, c, d)
    case EaseInOutQuad => InOutQuad(t, b, c, d)
    case EaseInCubic => InCubic(t, b, c, d)
    case EaseInOutCubic => InOutCubic(t, b, c, d)
    case EaseInQuart => InQuart(t, b, c, d)
    case EaseOutQuart => OutQuart(t, b, c, d)
    case EaseInOutQuart => InOutQuart(t, b, c, d)
    case EaseInQuint => InQuint(t, b, c, d)
    case EaseOutQuint => OutQuint(t, b, c, d)
    case EaseInOutQuint => InOutQuint(t, b, c, d)
  }
}

=== FILE: filters.dfy ===
/**
 * The filter pipeline of the viewer (`applyFilter`, `applyFilterHistory` and
 * `filters` in js/ImageViewer.js): the history of applied filters, which every
 * redraw replays, and the per-channel transforms over an RGBA buffer.
 *
 * A buffer is a sequence of channel values, four per pixel in the order red,
 * green, blue, alpha. The canvas hands the filters a clamped byte array, so
 * every value written is saturated into [0, 255] (Store below).
 */
module Filters {
  import opened Wrappers

  /** A filter argument as recorded in the history. */
  datatype Arg = Number(n: int) | Word(s: string)

  datatype Entry = Entry(filter: string, args: seq<Arg>)

  datatype Error = UnknownFilter(name: string)

  /** The filter names the `filters` object defines itself. Names it
      inherits from the object prototype (such as "constructor") are not
      included. */
  predicate Known(name: string) {
    name == "grayscale" || name == "rgb" || name == "brightness"
  }

  predicate AllKnown(history: seq<Entry>) {
    forall i :: 0 <= i < |history| ==> Known(history[i].filter)
  }

  /**
   * The bookkeeping of `applyFilter(filter, args, noHistory)`: an unknown name
   * throws before the history is touched; a known one is applied and, unless
   * `noHistory`, recorded as exactly one new entry at the end.
   */
  function ApplyFilter(history: seq<Entry>, name: string, args: seq<Arg>, noHistory: bool)
    : (r: Result<seq<Entry>, Error>)
    ensures r.Err? <==> !Known(name)
    ensures r.Err? ==> r.error == UnknownFilter(name)
    ensures r.Ok? ==> |r.value| == |history| + (if noHistory then 0 else 1)
    ensures r.Ok? ==> r.value[..|history|] == history
    ensures r.Ok? && !noHistory ==> r.value[|history|] == Entry(name, args)
  {
    if !Known(name) then Err(UnknownFilter(name))
    else if noHistory then Ok(history)
    else Ok(history + [Entry(name, args)])
  }

  /** Recording only succeeds for known names, so a history built by
      `applyFilter` names nothing but known filters. */
  lemma ApplyFilterKeepsKnown(history: seq<Entry>, name: string, args: seq<Arg>, noHistory: bool)
    requires AllKnown(history)
    requires ApplyFilter(history, name, args, noHistory).Ok?
    ensures AllKnown(ApplyFilter(history, name, args, noHistory).value)
  {
    var h := ApplyFilter(history, name, args, noHistory).value;
    forall i | 0 <= i < |h|
      ensures Known(h[i].filter)
    {
      if i < |history| {
        assert h[i] == h[..|history|][i];
      }
    }
  }

  /**
   * `applyFilterHistory`: re-apply every entry in order, each with
   * `noHistory` set. It stops at the first entry that throws; `replayed` is
   * the number of entries applied. The history never grows.
   */
  method ApplyFilterHistory(history: seq<Entry>) returns (r: Result<seq<Entry>, Error>, replayed: nat)
    ensures r.Ok? <==> AllKnown(history)
    ensures r.Ok? ==> r.value == history && replayed == |history|
    ensures r.Err? ==>
      && replayed < |history|
      && r.error == UnknownFilter(history[replayed].filter)
      && !Known(history[replayed].filter)
      && forall i :: 0 <= i < replayed ==> Known(history[i].filter)
  {
    var h := history;
    replayed := 0;
    while replayed < |history|
      invariant replayed <= |history|
      invariant h == history
      invariant forall i :: 0 <= i < replayed ==> Known(history[i].filter)
    {
      var entry := history[replayed];
      var step := ApplyFilter(h, entry.filter, entry.args, true);
      if step.Err? {
        return step, replayed;
      }
      h := step.value;
      replayed := replayed + 1;
    }
    r := Ok(h);
  }

  // ---------------------------------------------------------------------
  // Pixel transforms
  // ---------------------------------------------------------------------

  datatype Channel = Red | Green | Blue

  /** The position of a colour channel within a pixel. */
  function Index(c: Channel): nat {
    match c
    case Red => 0
    case Green => 1
    case Blue => 2
  }

  /** The `colors` table of the `rgb` filter; any other name is `undefined`. */
  function ColorNamed(name: string): (r: Option<Channel>)
    ensures r == Some(Red) <==> name == "red"
    ensures r == Some(Green) <==> name == "green"
    ensures r == Some(Blue) <==> name == "blue"
  {
    if name == "red" then Some(Red)
    else if name == "green" then Some(Green)
    else if name == "blue" then Some(Blue)
    else None
  }

  predicate IsByte(x: int) {
    0 <= x <= 255
  }

  predicate Bytes(data: seq<int>) {
    forall j :: 0 <= j < |data| ==> IsByte(data[j])
  }

  /** A write to a clamped byte array: saturate into [0, 255]. Filter
      modifiers are integers, so no rounding is involved. */
  function Store(x: int): (r: int)
    ensures IsByte(r)
    ensures IsByte(x) ==> r == x
    ensures x < 0 ==> r == 0
    ensures x > 255 ==> r == 255
  {
    if x < 0 then 0 else if x > 255 then 255 else x
  }

  /** The reference transform: store `m` plus every value whose position
      within its pixel is in `channels`, leave every other value alone. */
  function AddTo(data: seq<int>, channels: set<nat>, m: int): (r: seq<int>)
    ensures |r| == |data|
    ensures forall j :: 0 <= j < |data| && j % 4 !in channels ==> r[j] == data[j]
    ensures forall j :: 0 <= j < |data| && j % 4 in channels ==> IsByte(r[j])
    ensures Bytes(data) ==> Bytes(r)
  {
    seq(|data|, j requires 0 <= j < |data| => if j % 4 in channels then Store(data[j] + m) else data[j])
  }

  /**
   * The `rgb` filter: add `modifier` to the named channel of every pixel,
   * saturating each stored value. An
   * unknown colour makes the source index the buffer at NaN, which writes
   * nothing, so the buffer is returned unchanged.
   */
  method Rgb(data: seq<int>, color: string, modifier: int) returns (r: seq<int>)
    ensures ColorNamed(color).None? ==> r == data
    ensures ColorNamed(color).Some? ==> r == AddTo(data, {Index(ColorNamed(color).value)}, modifier)
  {
    r := data;
    var channel := ColorNamed(color);
    if channel.None? {
      return;
    }
    var k := Index(channel.value);
    var i := 0;
    while i < |r|
      invariant i % 4 == 0 && 0 <= i <= |r| + 3
      invariant |r| == |data|
      invariant forall j :: 0 <= j < |r| ==>
        r[j] == if j < i && j % 4 == k then Store(data[j] + modifier) else data[j]
    {
      if i + k < |r| {
        r := r[i + k := Store(r[i + k] + modifier)];
      }
      i := i + 4;
    }
  }

  /** The `brightness` filter: add `modifier` to red, green and blue of every
      pixel, saturating; alpha is never written. */
  method Brightness(data: seq<int>, modifier: int) returns (r: seq<int>)
    ensures r == AddTo(data, {0, 1, 2}, modifier)
    ensures forall j :: 0 <= j < |data| && j % 4 == 3 ==> r[j] == data[j]
  {
    r := data;
    var i := 0;
    while i < |r|
      invariant i % 4 == 0 && 0 <= i <= |r| + 3
      invariant |r| == |data|
      invariant forall j :: 0 <= j < |r| ==>
        r[j] == if j < i && j % 4 != 3 then Store(data[j] + modifier) else data[j]
    {
      r := r[i := Store(r[i] + modifier)];
      if i + 1 < |r| {
        r := r[i + 1 := Store(r[i + 1] + modifier)];
      }
      if i + 2 < |r| {
        r := r[i + 2 := Store(r[i + 2] + modifier)];
      }
      i := i + 4;
    }
  }

  /** Shifting the same channels by `m` then by `-m` restores a byte buffer
      as long as no shifted value saturated. */
  lemma AddToUndo(data: seq<int>, channels: set<nat>, m: int)
    requires Bytes(data)
    requires forall j :: 0 <= j < |data| && j % 4 in channels ==> IsByte(data[j] + m)
    ensures AddTo(AddTo(data, channels, m), channels, -m) == data
  {
  }

  /** Saturation loses information: brightening a near-white pixel by 10 and
      darkening it by 10 does not give it back. */
  lemma SaturationIsLossy()
    ensures AddTo(AddTo([250, 0, 0, 255], {0, 1, 2}, 10), {0, 1, 2}, -10) == [245, 0, 0, 255]
  {
    assert AddTo([250, 0, 0, 255], {0, 1, 2}, 10) == [255, 10, 10, 255];
  }

  /** Shifts of disjoint channel sets by the same amount compose into one. */
  lemma AddToCompose(data: seq<int>, a: set<nat>, b: set<nat>, m: int)
    requires a !! b
    ensures AddTo(AddTo(data, a, m), b, m) == AddTo(data, a + b, m)
  {
  }

  /** Brightness is the red, green and blue `rgb` shifts applied in turn. */
  lemma BrightnessIsThreeShifts(data: seq<int>, m: int)
    ensures AddTo(AddTo(AddTo(data, {0}, m), {1}, m), {2}, m) == AddTo(data, {0, 1, 2}, m)
  {
    AddToCompose(data, {0}, {1}, m);
    AddToCompose(AddTo(data, {0}, m), {1}, {2}, m);
    assert {0} + {1} == {0, 1};
    AddToCompose(data, {0, 1}, {2}, m);
    assert {0, 1} + {2} == {0, 1, 2};
  }
}

=== FILE: legacy.dfy ===
/**
 * The older, concatenated build of the viewer (js/ImageViewer.build.js):
 * its `extend` and `proxy` helpers, and the parts of its viewport logic that
 * differ from the current viewer — a clamp measured on the workspace rather
 * than the displayed image, a zoom that treats a zero target as "no target",
 * and a slider mapping that adds the percent to the minimum scale.
 */
module Legacy {
  import opened Wrappers
  import Viewport

  // ---------------------------------------------------------------------
  // extend
  // ---------------------------------------------------------------------

  /** The index of the last source that holds `key`, if any. */
  function LastWith<V>(sources: seq<map<string, V>>, key: string): (r: Option<nat>)
    ensures r.Some? ==> r.value < |sources| && key in sources[r.value]
    ensures r.Some? ==> forall j :: r.value < j < |sources| ==> key !in sources[j]
    ensures r.None? ==> forall j :: 0 <= j < |sources| ==> key !in sources[j]
  {
    if |sources| == 0 then None
    else if key in sources[|sources| - 1] then Some(|sources| - 1)
    else LastWith(sources[..|sources| - 1], key)
  }

  /** `r` is what copying the sources onto `target` in order gives: a key
      takes the value of the last source holding it, and a key held by no
      source keeps the target's value. */
  ghost predicate Merged<V>(r: map<string, V>, target: map<string, V>, sources: seq<map<string, V>>) {
    (forall k :: k in r <==> k in target || LastWith(sources, k).Some?)
    && (forall k | k in r :: r[k] == match LastWith(sources, k) {
         case Some(i) => sources[i][k]
         case None => target[k]
       })
  }

  /**
   * `extend(target, s1, ..., sn)`: copy every own key of each source onto
   * the target, sources in order. The source mutates and returns `target`;
   * the model returns the result.
   */
  function Extend<V>(target: map<string, V>, sources: seq<map<string, V>>): (r: map<string, V>)
    ensures Merged(r, target, sources)
  {
    if |sources| == 0 then target
    else
      var prefix := Extend(target, sources[..|sources| - 1]);
      MergedStep(prefix, target, sources);
      prefix + sources[|sources| - 1]
  }

  /** Copying one more source onto a merge of the others merges them all. */
  lemma MergedStep<V>(prefix: map<string, V>, target: map<string, V>, sources: seq<map<string, V>>)
    requires |sources| > 0 && Merged(prefix, target, sources[..|sources| - 1])
    ensures Merged(prefix + sources[|sources| - 1], target, sources)
  {
    var n := |sources| - 1;
    forall k
      ensures LastWith(sources, k) == if k in sources[n] then Some(n) else LastWith(sources[..n], k)
    {
    }
  }

  /** A key that no source holds is left exactly as the target had it. */
  lemma ExtendKeepsUntouched<V>(target: map<string, V>, sources: seq<map<string, V>>, k: string)
    requires forall i :: 0 <= i < |sources| ==> k !in sources[i]
    ensures k in Extend(target, sources) <==> k in target
    ensures k in target ==> Extend(target, sources)[k] == target[k]
  {
  }

  /** The options merge `extend(_defaults, options)`: a given option wins over
      its default, and an option not given keeps its default. */
  lemma OptionsOverrideDefaults<V>(defaults: map<string, V>, options: map<string, V>)
    ensures Extend(defaults, [options]).Keys == defaults.Keys + options.Keys
    ensures forall k | k in options :: Extend(defaults, [options])[k] == options[k]
    ensures forall k | k in defaults && k !in options :: Extend(defaults, [options])[k] == defaults[k]
  {
    var r := Extend(defaults, [options]);
    forall k | k in options
      ensures r[k] == options[k]
    {
      assert LastWith([options], k) == Some(0);
    }
  }

  /** Extending in two steps is extending once with all the sources. */
  lemma {:induction false} ExtendSplits<V>(target: map<string, V>, a: seq<map<string, V>>, b: seq<map<string, V>>)
    ensures Extend(Extend(target, a), b) == Extend(target, a + b)
  {
    if |b| == 0 {
      assert a + b == a;
    } else {
      var n := |b| - 1;
      assert (a + b)[..|a + b| - 1] == a + b[..n];
      ExtendSplits(target, a, b[..n]);
    }
  }

  // ---------------------------------------------------------------------
  // proxy
  // ---------------------------------------------------------------------

  /** `proxy(fn, context, a...)`: `fn` with a fixed receiver, when one is
      given, and a fixed list of leading arguments. */
  datatype Proxy<!C, !A, R> = Proxy(fn: (C, seq<A>) -> R, context: Option<C>, bound: seq<A>)

  /** Calling a proxy on receiver `self` with arguments `args` calls `fn` on
      the bound receiver (or `self` when none was bound) with the bound
      arguments followed by `args`. */
  function Call<C, A, R>(p: Proxy<C, A, R>, self: C, args: seq<A>): (r: R)
    ensures p.context.Some? ==> r == p.fn(p.context.value, p.bound + args)
    ensures p.context.None? ==> r == p.fn(self, p.bound + args)
  {
    p.fn(p.context.GetOr(self), p.bound + args)
  }

  /** A proxy as a plain function, so that it can itself be proxied. */
  function AsFn<C, A, R>(p: Proxy<C, A, R>): (C, seq<A>) -> R {
    (self: C, args: seq<A>) => Call(p, self, args)
  }

  /** With a bound receiver, the receiver a call is made on is irrelevant. */
  lemma BoundReceiverWins<C, A, R>(p: Proxy<C, A, R>, self1: C, self2: C, args: seq<A>)
    requires p.context.Some?
    ensures Call(p, self1, args) == Call(p, self2, args)
  {
  }

  /** Proxying a proxy binds the outer arguments after the inner ones. */
  lemma ProxyComposes<C, A, R>(p: Proxy<C, A, R>, c: Option<C>, b: seq<A>, self: C, args: seq<A>)
    requires p.context.Some?
    ensures Call(Proxy(AsFn(p), c, b), self, args) == Call(p.(bound := p.bound + b), self, args)
  {
    assert p.bound + (b + args) == (p.bound + b) + args;
  }

  // ---------------------------------------------------------------------
  // The legacy viewport
  // ---------------------------------------------------------------------

  datatype Viewer = Viewer(
    minScale: real,
    dragSmall: bool,
    workspace: Viewport.Size,
    original: Viewport.Size,
    display: Viewport.Size,
    scale: real,
    offset: Viewport.Point,
    dragging: bool,
    drag: Viewport.Point)

  predicate Valid(v: Viewer) {
    Viewport.Positive(v.workspace) && Viewport.Positive(v.original)
  }

  /** JavaScript truthiness of an optional number: undefined and 0 are falsy. */
  predicate Truthy(value: Option<real>) {
    value.Some? && value.value != 0.0
  }

  /** The band's width: how far the workspace and the workspace scaled by
      `scale` differ along the axis. */
  function Delta(v: Viewer, axis: Viewport.Axis): (r: real)
    ensures r >= 0.0
  {
    var ws := v.workspace.Along(axis);
    Viewport.Abs(ws - ws * v.scale)
  }

  function WithAxis(p: Viewport.Point, axis: Viewport.Axis, value: real): (r: Viewport.Point)
    ensures r.Along(axis) == value
    ensures axis == Viewport.X ==> r.y == p.y
    ensures axis == Viewport.Y ==> r.x == p.x
  {
    if axis == Viewport.X then p.(x := value) else p.(y := value)
  }

  function Other(axis: Viewport.Axis): Viewport.Axis {
    if axis == Viewport.X then Viewport.Y else Viewport.X
  }

  /** The offset an image at or below scale 1 is pinned to without
      `dragSmall`: centred in the display (canvas) size. */
  function Centred(v: Viewer): Viewport.Point {
    Viewport.Point((v.display.width - v.display.width * v.scale) * 0.5,
                   (v.display.height - v.display.height * v.scale) * 0.5)
  }

  /** The value `clampAxis` works on: a truthy one as given, else the
      axis's current offset. */
  function Given(v: Viewer, axis: Viewport.Axis, value: Option<real>): real {
    if Truthy(value) then value.value else v.offset.Along(axis)
  }

  /**
   * Legacy `clampAxis`. A falsy value means the current offset. Above
   * scale 1 the axis is kept in [-delta, 0]; at or below scale 1 it is kept
   * in [0, delta] when `dragSmall` is set, and otherwise the value is
   * ignored and both axes are pinned to the centred offset.
   */
  function ClampAxis(v: Viewer, axis: Viewport.Axis, value: Option<real>): (r: Viewer)
    ensures r == v.(offset := r.offset)
    ensures v.scale > 1.0 ==>
      -Delta(v, axis) <= r.offset.Along(axis) <= 0.0 && r.offset.Along(Other(axis)) == v.offset.Along(Other(axis))
    ensures v.scale <= 1.0 && v.dragSmall ==>
      0.0 <= r.offset.Along(axis) <= Delta(v, axis) && r.offset.Along(Other(axis)) == v.offset.Along(Other(axis))
    ensures v.scale <= 1.0 && !v.dragSmall ==> r.offset == Centred(v)
    ensures Truthy(value) && (v.scale > 1.0 || v.dragSmall)
      && (if v.scale > 1.0 then -Delta(v, axis) <= value.value <= 0.0 else 0.0 <= value.value <= Delta(v, axis))
      ==> r.offset.Along(axis) == value.value
    ensures !Truthy(value) && (v.scale > 1.0 || v.dragSmall)
      && (if v.scale > 1.0 then -Delta(v, axis) <= v.offset.Along(axis) <= 0.0
          else 0.0 <= v.offset.Along(axis) <= Delta(v, axis))
      ==> r == v
    ensures v.scale > 1.0 && Given(v, axis, value) > 0.0 ==> r.offset.Along(axis) == 0.0
    ensures v.scale > 1.0 && Given(v, axis, value) < -Delta(v, axis) ==> r.offset.Along(axis) == -Delta(v, axis)
    ensures v.scale <= 1.0 && v.dragSmall && Given(v, axis, value) < 0.0 ==> r.offset.Along(axis) == 0.0
    ensures v.scale <= 1.0 && v.dragSmall && Given(v, axis, value) > Delta(v, axis) ==> r.offset.Along(axis) == Delta(v, axis)
  {
    var given := Given(v, axis, value);
    var delta := Delta(v, axis);
    if v.scale > 1.0 then
      var c := if given > 0.0 then 0.0 else if given < -delta then -delta else given;
      v.(offset := WithAxis(v.offset, axis, c))
    else if v.dragSmall then
      var c := if given > delta then delta else if given < 0.0 then 0.0 else given;
      v.(offset := WithAxis(v.offset, axis, c))
    else
      v.(offset := Centred(v))
  }

  /** A falsy value clamps the current offset. */
  lemma FalsyMeansCurrent(v: Viewer, axis: Viewport.Axis, value: Option<real>)
    requires !Truthy(value)
    ensures ClampAxis(v, axis, value) == ClampAxis(v, axis, Some(v.offset.Along(axis)))
  {
  }

  /** The band and the centred offset depend only on the workspace, the
      display and the scale. */
  lemma SameMeasure(a: Viewer, b: Viewer)
    requires a.workspace == b.workspace && a.display == b.display && a.scale == b.scale
    ensures Delta(a, Viewport.X) == Delta(b, Viewport.X) && Delta(a, Viewport.Y) == Delta(b, Viewport.Y)
    ensures Centred(a) == Centred(b)
  {
  }

  /** The band's width depends only on the workspace and the scale. */
  lemma SameDelta(a: Viewer, b: Viewer)
    requires a.workspace == b.workspace && a.scale == b.scale
    ensures Delta(a, Viewport.X) == Delta(b, Viewport.X) && Delta(a, Viewport.Y) == Delta(b, Viewport.Y)
  {
  }

  /** Legacy `clamp(x, y)`: the x axis, then the y axis. */
  function Clamp(v: Viewer, x: Option<real>, y: Option<real>): (r: Viewer)
    ensures r == v.(offset := r.offset)
    ensures v.scale > 1.0 ==>
      -Delta(v, Viewport.X) <= r.offset.x <= 0.0 && -Delta(v, Viewport.Y) <= r.offset.y <= 0.0
    ensures v.scale <= 1.0 && v.dragSmall ==>
      0.0 <= r.offset.x <= Delta(v, Viewport.X) && 0.0 <= r.offset.y <= Delta(v, Viewport.Y)
    ensures v.scale <= 1.0 && !v.dragSmall ==> r.offset == Centred(v)
    ensures v.scale > 1.0 && Given(v, Viewport.X, x) > 0.0 ==> r.offset.x == 0.0
    ensures v.scale > 1.0 && Given(v, Viewport.X, x) < -Delta(v, Viewport.X) ==> r.offset.x == -Delta(v, Viewport.X)
    ensures v.scale > 1.0 && Given(v, Viewport.Y, y) > 0.0 ==> r.offset.y == 0.0
    ensures v.scale > 1.0 && Given(v, Viewport.Y, y) < -Delta(v, Viewport.Y) ==> r.offset.y == -Delta(v, Viewport.Y)
    ensures v.scale <= 1.0 && v.dragSmall && Given(v, Viewport.X, x) < 0.0 ==> r.offset.x == 0.0
    ensures v.scale <= 1.0 && v.dragSmall && Given(v, Viewport.X, x) > Delta(v, Viewport.X) ==> r.offset.x == Delta(v, Viewport.X)
    ensures v.scale <= 1.0 && v.dragSmall && Given(v, Viewport.Y, y) < 0.0 ==> r.offset.y == 0.0
    ensures v.scale <= 1.0 && v.dragSmall && Given(v, Viewport.Y, y) > Delta(v, Viewport.Y) ==> r.offset.y == Delta(v, Viewport.Y)
  {
    var v1 := ClampAxis(v, Viewport.X, x);
    SameMeasure(v1, v);
    ClampAxis(v1, Viewport.Y, y)
  }

  /** Clamping an already clamped viewer with no targets changes nothing. */
  lemma ClampSettles(v: Viewer, x: Option<real>, y: Option<real>)
    ensures Clamp(Clamp(v, x, y), None, None) == Clamp(v, x, y)
  {
    var c := Clamp(v, x, y);
    SameMeasure(c, v);
    var c1 := ClampAxis(c, Viewport.X, None);
    assert c1 == c;
  }

  /**
   * Legacy `zoom(amount, x, y)`: set the scale, resize the display with the
   * as-written `setSize`, take each target only when it is truthy, then
   * clamp. A target of exactly 0 is therefore ignored.
   */
  function Zoom(v: Viewer, amount: real, x: Option<real>, y: Option<real>): (r: Viewer)
    requires Valid(v)
    ensures r.scale == amount && Valid(r)
    ensures r.display == Viewport.SetSizeAsWritten(v.original, v.workspace)
    ensures r == v.(scale := amount, display := r.display, offset := r.offset)
    ensures amount > 1.0 ==>
      -Delta(r, Viewport.X) <= r.offset.x <= 0.0 && -Delta(r, Viewport.Y) <= r.offset.y <= 0.0
    ensures amount <= 1.0 && v.dragSmall ==>
      0.0 <= r.offset.x <= Delta(r, Viewport.X) && 0.0 <= r.offset.y <= Delta(r, Viewport.Y)
    ensures amount <= 1.0 && !v.dragSmall ==> r.offset == Centred(r)
  {
    var v1 := v.(scale := amount, display := Viewport.SetSizeAsWritten(v.original, v.workspace));
    var o := Viewport.Point(if Truthy(x) then x.value else v.offset.x,
                            if Truthy(y) then y.value else v.offset.y);
    var v2 := v1.(offset := o);
    var r := Clamp(v2, Some(o.x), Some(o.y));
    SameMeasure(r, v2);
    r
  }

  /** Where the band applies, a truthy target that lies in the band is where
      the offset lands, and with a falsy target an in-band offset stays put;
      each axis on its own. */
  lemma ZoomTakesTargets(v: Viewer, amount: real, x: Option<real>, y: Option<real>)
    requires Valid(v)
    ensures var r := Zoom(v, amount, x, y);
      (amount > 1.0 || v.dragSmall) && Truthy(x) && InLegacyBand(r, Viewport.X, x.value) ==> r.offset.x == x.value
    ensures var r := Zoom(v, amount, x, y);
      (amount > 1.0 || v.dragSmall) && Truthy(y) && InLegacyBand(r, Viewport.Y, y.value) ==> r.offset.y == y.value
    ensures var r := Zoom(v, amount, x, y);
      (amount > 1.0 || v.dragSmall) && !Truthy(x) && InLegacyBand(r, Viewport.X, v.offset.x) ==> r.offset.x == v.offset.x
    ensures var r := Zoom(v, amount, x, y);
      (amount > 1.0 || v.dragSmall) && !Truthy(y) && InLegacyBand(r, Viewport.Y, v.offset.y) ==> r.offset.y == v.offset.y
  {
    var v1 := v.(scale := amount, display := Viewport.SetSizeAsWritten(v.original, v.workspace));
    var o := Viewport.Point(if Truthy(x) then x.value else v.offset.x,
                            if Truthy(y) then y.value else v.offset.y);
    var v2 := v1.(offset := o);
    var r := Zoom(v, amount, x, y);
    assert r == Clamp(v2, Some(o.x), Some(o.y));
    ClampAtOffset(v2);
    ClampKeepsBandedAxes(v2);
    SameDelta(r, v2);
    assert InLegacyBand(r, Viewport.X, o.x) == InLegacyBand(v2, Viewport.X, o.x);
    assert InLegacyBand(r, Viewport.Y, o.y) == InLegacyBand(v2, Viewport.Y, o.y);
  }

  /** Clamping to the current offset is clamping with no targets: a truthy
      target and the falsy fallback both name the offset. */
  lemma ClampAtOffset(v: Viewer)
    ensures Clamp(v, Some(v.offset.x), Some(v.offset.y)) == Clamp(v, None, None)
  {
    var c1 := ClampAxis(v, Viewport.X, None);
    assert ClampAxis(v, Viewport.X, Some(v.offset.x)) == c1;
    SameMeasure(c1, v);
  }

  /** Where the band applies, a no-target clamp keeps each axis that already
      lies in its band, whatever the other axis does. */
  lemma ClampKeepsBandedAxes(v: Viewer)
    ensures (v.scale > 1.0 || v.dragSmall) && InLegacyBand(v, Viewport.X, v.offset.x)
      ==> Clamp(v, None, None).offset.x == v.offset.x
    ensures (v.scale > 1.0 || v.dragSmall) && InLegacyBand(v, Viewport.Y, v.offset.y)
      ==> Clamp(v, None, None).offset.y == v.offset.y
  {
    var c1 := ClampAxis(v, Viewport.X, None);
    SameMeasure(c1, v);
  }

  /** A zero target is the same as no target. */
  lemma ZoomIgnoresZero(v: Viewer, amount: real)
    requires Valid(v)
    ensures Zoom(v, amount, Some(0.0), Some(0.0)) == Zoom(v, amount, None, None)
  {
  }

  /** `value` lies in the band the axis is clamped to above scale 1, or at
      or below scale 1 with `dragSmall`. */
  predicate InLegacyBand(v: Viewer, axis: Viewport.Axis, value: real) {
    if v.scale > 1.0 then -Delta(v, axis) <= value <= 0.0 else 0.0 <= value <= Delta(v, axis)
  }

  /** Legacy `onPointerMove`: while dragging, move the offset by the pointer
      delta, then clamp with no targets (so the moved offset is kept). */
  function PointerMove(v: Viewer, p: Viewport.Point): (r: Viewer)
    requires Valid(v)
    ensures !v.dragging ==> r == v
    ensures v.dragging ==>
      r == v.(display := Viewport.SetSizeAsWritten(v.original, v.workspace), offset := r.offset, drag := p)
    ensures v.dragging && v.scale > 1.0 ==>
      -Delta(r, Viewport.X) <= r.offset.x <= 0.0 && -Delta(r, Viewport.Y) <= r.offset.y <= 0.0
    ensures v.dragging && v.scale <= 1.0 && v.dragSmall ==>
      0.0 <= r.offset.x <= Delta(r, Viewport.X) && 0.0 <= r.offset.y <= Delta(r, Viewport.Y)
    ensures v.dragging && v.scale <= 1.0 && !v.dragSmall ==> r.offset == Centred(r)
    ensures v.dragging && (v.scale > 1.0 || v.dragSmall)
      && InLegacyBand(v, Viewport.X, v.offset.x + p.x - v.drag.x)
      && InLegacyBand(v, Viewport.Y, v.offset.y + p.y - v.drag.y)
      ==> r.offset == Viewport.Point(v.offset.x + p.x - v.drag.x, v.offset.y + p.y - v.drag.y)
  {
    if !v.dragging then v
    else
      var v1 := v.(display := Viewport.SetSizeAsWritten(v.original, v.workspace));
      var moved := Viewport.Point(v.offset.x + p.x - v.drag.x, v.offset.y + p.y - v.drag.y);
      var v2 := v1.(offset := moved, drag := p);
      SameDelta(v2, v);
      ClampKeepsBandedOffset(v2);
      var r := Clamp(v2, None, None);
      SameMeasure(r, v2);
      r
  }

  /** Where the band applies and the offset already lies in it, clamping with
      no targets changes nothing. */
  lemma ClampKeepsBandedOffset(v: Viewer)
    ensures (v.scale > 1.0 || v.dragSmall)
      && InLegacyBand(v, Viewport.X, v.offset.x) && InLegacyBand(v, Viewport.Y, v.offset.y)
      ==> Clamp(v, None, None) == v
  {
    var c1 := ClampAxis(v, Viewport.X, None);
    SameMeasure(c1, v);
  }

  /** Legacy slider mapping: a percent is added, in hundredths, to the
      minimum scale. */
  function SliderScale(minScale: real, percents: real): (r: real)
    ensures percents == 0.0 ==> r == minScale
    ensures percents == 100.0 ==> r == minScale + 1.0
    ensures 0.0 <= percents <= 100.0 ==> minScale <= r <= minScale + 1.0
  {
    1.0 / 100.0 * percents + minScale
  }

  /** The percent a scale corresponds to: the inverse of SliderScale. */
  function PercentOfScale(minScale: real, s: real): real {
    (s - minScale) * 100.0
  }

  lemma SliderScaleRoundTrip(minScale: real, p: real)
    ensures PercentOfScale(minScale, SliderScale(minScale, p)) == p
    ensures SliderScale(minScale, PercentOfScale(minScale, p)) == p
  {
  }

  /** The legacy and the current slider agree at the empty end; at the full
      end they agree exactly when `maxScale` is `minScale + 1` — under the
      current defaults (0.7 and 1.5) the legacy slider reaches 1.7, not 1.5. */
  lemma SlidersCompared(o: Viewport.Options)
    ensures SliderScale(o.minScale, 0.0) == Viewport.SliderScale(o, 0.0)
    ensures SliderScale(o.minScale, 100.0) == Viewport.SliderScale(o, 100.0) <==> o.maxScale == o.minScale + 1.0
    ensures SliderScale(Viewport.Defaults.minScale, 100.0) == 1.7
  {
  }
}

=== FILE: range_slider.dfy ===
/**
 * The range slider control (js/components/RangeSlider.js): a drag along a
 * horizontal or vertical track turns into a percent, handed to a change
 * callback. Measurement of the track is a constructor parameter; the bar's
 * style and the listeners are not modelled.
 */
module RangeSlider {
  import opened Wrappers

  datatype Slider = Slider(
    vertical: bool,
    max: real,           // the track's length in pixels
    emptyOffset: real,   // the page coordinate where the fill is empty
    percent: real,
    sliding: bool)

  /** The result of an input: the new state and the value, if any, that the
      `onChange` callback received. */
  datatype Update = Update(slider: Slider, notified: Option<real>)

  /**
   * `init` and `setSize`: a slider measured at `top`/`left` with the given
   * track length. A vertical track fills upwards, so its empty end is the
   * bottom edge `top + extent`; a horizontal one fills from the left edge.
   */
  function New(vertical: bool, extent: real, top: real, left: real): (s: Slider)
    requires extent > 0.0
    ensures s.percent == 0.0 && !s.sliding && s.vertical == vertical && s.max == extent
    ensures vertical ==> s.emptyOffset == top + extent
    ensures !vertical ==> s.emptyOffset == left
  {
    Slider(vertical, extent, if vertical then top + extent else left, 0.0, false)
  }

  predicate Measured(s: Slider) {
    s.max > 0.0
  }

  /** `offsetToPercent`: the pointer's distance from the empty end in
      hundredths of the track; a pointer past the empty end reads 0. */
  function OffsetToPercent(s: Slider, pointer: real): (r: real)
    requires Measured(s)
    ensures r >= 0.0
    ensures !s.vertical ==> (r > 0.0 <==> pointer > s.emptyOffset)
    ensures s.vertical ==> (r > 0.0 <==> pointer < s.emptyOffset)
  {
    var percent := (pointer - s.emptyOffset) / (s.max / 100.0);
    SignOfQuotient(pointer - s.emptyOffset, s.max / 100.0);
    if s.vertical then (if percent <= 0.0 then -percent else 0.0)
    else (if percent >= 0.0 then percent else 0.0)
  }

  lemma SignOfQuotient(a: real, b: real)
    requires b > 0.0
    ensures a > 0.0 <==> a / b > 0.0
    ensures a < 0.0 <==> a / b < 0.0
  {
    assert (a / b) * b == a;
  }

  /** Where on the track a pointer must be to read `k` percent. */
  function PercentToOffset(s: Slider, k: real): real {
    if s.vertical then s.emptyOffset - k * (s.max / 100.0)
    else s.emptyOffset + k * (s.max / 100.0)
  }

  /** Pointing at the position of `k` percent reads back `k`, in either
      orientation. */
  lemma OffsetToPercentRoundTrip(s: Slider, k: real)
    requires Measured(s) && k >= 0.0
    ensures OffsetToPercent(s, PercentToOffset(s, k)) == k
  {
    var unit := s.max / 100.0;
    if s.vertical {
      assert (PercentToOffset(s, k) - s.emptyOffset) / unit == -k;
    } else {
      assert (PercentToOffset(s, k) - s.emptyOffset) / unit == k;
    }
  }

  /** The clamp applied to the value handed to `onChange`. */
  function Saturate(p: real): real {
    if p > 100.0 then 100.0 else if p < 0.0 then 0.0 else p
  }

  /**
   * `set`: store the pointer's percent as read, which may exceed 100, and
   * notify the callback with it saturated into [0, 100].
   */
  function Set(s: Slider, pointer: real): (u: Update)
    requires Measured(s)
    ensures u.slider == s.(percent := OffsetToPercent(s, pointer))
    ensures u.notified.Some? && 0.0 <= u.notified.value <= 100.0
    ensures u.slider.percent <= 100.0 ==> u.notified == Some(u.slider.percent)
    ensures u.slider.percent > 100.0 ==> u.notified == Some(100.0)
  {
    var percent := OffsetToPercent(s, pointer);
    Update(s.(percent := percent), Some(Saturate(percent)))
  }

  /** `startSlide`: a press starts a drag and sets the value at once. */
  function StartSlide(s: Slider, pointer: real): (u: Update)
    requires Measured(s)
    ensures u.slider.sliding
    ensures u == Set(s.(sliding := true), pointer)
  {
    Set(s.(sliding := true), pointer)
  }

  /** `moveSlide`: a move changes the value only during a drag. */
  function MoveSlide(s: Slider, pointer: real): (u: Update)
    requires Measured(s)
    ensures !s.sliding ==> u == Update(s, None)
    ensures s.sliding ==> u == Set(s, pointer)
  {
    if s.sliding then Set(s, pointer) else Update(s, None)
  }

  /** `stopSlide`: a release ends the drag, touching nothing else. */
  function StopSlide(s: Slider): (r: Slider)
    ensures !r.sliding && r == s.(sliding := false)
  {
    s.(sliding := false)
  }

  /** After a release, moving the pointer changes nothing. */
  lemma NoMoveAfterStop(s: Slider, pointer: real)
    requires Measured(s)
    ensures MoveSlide(StopSlide(s), pointer) == Update(StopSlide(s), None)
  {
  }

  /** `value()`: the getter. */
  function Value(s: Slider): real {
    s.percent
  }

  /** After `set`, the getter reads the raw percent. Past the full end that
      exceeds 100, while the callback was told 100. */
  lemma ValueAfterSet(s: Slider, pointer: real)
    requires Measured(s)
    ensures var u := Set(s, pointer);
      Value(u.slider) == OffsetToPercent(s, pointer)
      && (Value(u.slider) > 100.0 <==> u.notified != Some(Value(u.slider)))
  {
  }

  /**
   * `value(v, trigger)`: store `v` unclamped and notify the callback with
   * exactly `v`, unless `trigger` is given and false.
   */
  function SetValue(s: Slider, v: real, trigger: Option<bool>): (u: Update)
    ensures Value(u.slider) == v
    ensures u.slider == s.(percent := v)
    ensures trigger == Some(false) <==> u.notified.None?
    ensures u.notified.Some? ==> u.notified.value == v
  {
    var s' := s.(percent := v);
    if trigger == Some(false) then Update(s', None) else Update(s', Some(v))
  }

  /** A drag in either orientation, pressed at `p`, moved to `q` and
      released, ends with the percent of `q` and no drag in progress. */
  lemma DragSequence(s: Slider, p: real, q: real)
    requires Measured(s)
    ensures var u1 := StartSlide(s, p);
      var u2 := MoveSlide(u1.slider, q);
      var s3 := StopSlide(u2.slider);
      Value(s3) == OffsetToPercent(s, q) && !s3.sliding
  {
  }
}

=== FILE: viewport.dfy ===
/**
 * The viewport arithmetic of the image viewer (js/ImageViewer.js): the
 * fit-to-workspace display size, the per-axis offset band and its clamp, the
 * zoom-about-centre recentring, the guarded zoom, dragging, and the mapping
 * from the zoom slider's percent to a scale.
 *
 * The canvas is resized to the display size (js/ImageViewer.js:142-143), so
 * `display` below stands for `canvas.width`/`canvas.height`, taken as the
 * exact `setSize` result: the canvas keeps only whole pixels, and that
 * truncation is not modelled. Painting is modelled only as a count of
 * redraws; every redraw replays the filter history, which the Filters
 * module shows keeps the number and names of its entries.
 */
module Viewport {
  import opened Wrappers
  import Filters

  datatype Axis = X | Y

  datatype Size = Size(width: real, height: real) {
    function Along(axis: Axis): real {
      if axis == X then width else height
    }
  }

  datatype Point = Point(x: real, y: real) {
    function Along(axis: Axis): real {
      if axis == X then x else y
    }
  }

  /** The options the viewer recognises (defaults at js/ImageViewer.js:23-37);
      the DOM handles and callbacks among them are not modelled. */
  datatype Options = Options(
    minScale: real,
    maxScale: real,
    dragSmall: bool,
    easing: string)

  const Defaults: Options := Options(0.7, 1.5, false, "easeOutCubic")

  /** Which `setSize` the viewer runs: the source's as written, or the
      corrected fit (see the findings on SetSizeAsWritten). */
  datatype Fit = AsWritten | Corrected

  datatype Viewer = Viewer(
    options: Options,
    fit: Fit,
    workspace: Size,        // the canvas parent's measured size
    original: Size,         // the loaded image's natural size
    display: Size,          // the canvas size chosen by setSize
    scale: real,
    prevScale: real,
    offset: Point,          // top-left paint position of the scaled image
    dragging: bool,
    drag: Point,            // the last pointer position seen while dragging
    history: seq<Filters.Entry>,
    paints: nat)            // how many times the image has been drawn

  // ---------------------------------------------------------------------
  // Display size
  // ---------------------------------------------------------------------

  predicate Positive(s: Size) {
    s.width > 0.0 && s.height > 0.0
  }

  predicate Exceeds(original: Size, workspace: Size) {
    original.width > workspace.width || original.height > workspace.height
  }

  /** `a` has the aspect ratio of `b`, written without division. */
  predicate SameRatio(a: Size, b: Size) {
    a.width * b.height == a.height * b.width
  }

  function Abs(a: real): (r: real)
    ensures r >= 0.0 && (r == a || r == -a)
  {
    if a < 0.0 then -a else a
  }

  predicate FitsIn(a: Size, b: Size) {
    a.width <= b.width && a.height <= b.height
  }

  /**
   * `setSize` exactly as the source computes it: when the image exceeds the
   * workspace on some axis, the exceeding axes are capped at the workspace
   * and whichever of the two capped extents is larger is kept, the other
   * following the original ratio. This keeps the ratio but does not always
   * fit (see SetSizeCanOverflow).
   */
  function SetSizeAsWritten(original: Size, workspace: Size): (r: Size)
    requires Positive(original) && Positive(workspace)
    ensures !Exceeds(original, workspace) ==> r == original
    ensures Positive(r) && SameRatio(r, original)
    ensures Exceeds(original, workspace) ==>
      var w := if original.width > workspace.width then workspace.width else original.width;
      var h := if original.height > workspace.height then workspace.height else original.height;
      (w > h ==> r.width == w) && (w <= h ==> r.height == h)
  {
    if !Exceeds(original, workspace) then original
    else
      var w := if original.width > workspace.width then workspace.width else original.width;
      var h := if original.height > workspace.height then workspace.height else original.height;
      KeepRatio(original, w, h)
  }

  /** The branch of `setSize` for an exceeding image: the larger of the
      capped extents `w`, `h` is kept and the other one follows the original
      ratio `original.width / original.height`. */
  function KeepRatio(original: Size, w: real, h: real): (r: Size)
    requires Positive(original) && w > 0.0 && h > 0.0
    ensures Positive(r) && SameRatio(r, original)
    ensures w > h ==> r.width == w
    ensures w <= h ==> r.height == h
  {
    var ratio := original.width / original.height;
    if w > h then
      RatioStep(original.width, original.height, w);
      Size(w, w / ratio)
    else
      RatioStep(original.height, original.width, h);
      Size(h * ratio, h)
  }

  /** `x / (a / b)` and `x * (a / b)` keep the ratio `a : b`. */
  lemma RatioStep(a: real, b: real, x: real)
    requires a > 0.0 && b > 0.0 && x > 0.0
    ensures x / (a / b) > 0.0 && x * (b / a) > 0.0
    ensures x * b == (x / (a / b)) * a
    ensures x * (b / a) * a == x * b
  {
    assert x / (a / b) == x * b / a;
  }

  /** A portrait image in a landscape workspace: the as-written display is
      taller than the workspace. */
  lemma SetSizeCanOverflow()
    ensures SetSizeAsWritten(Size(1000.0, 3000.0), Size(800.0, 600.0)) == Size(800.0, 2400.0)
    ensures !FitsIn(SetSizeAsWritten(Size(1000.0, 3000.0), Size(800.0, 600.0)), Size(800.0, 600.0))
  {
    var r := SetSizeAsWritten(Size(1000.0, 3000.0), Size(800.0, 600.0));
    assert 800.0 / (1000.0 / 3000.0) == 2400.0;
  }

  /**
   * The display size the viewer uses: shrink-to-fit by the smaller of the two
   * workspace/original ratios, never upscaling.
   */
  function FitSize(original: Size, workspace: Size): (r: Size)
    requires Positive(original) && Positive(workspace)
    ensures !Exceeds(original, workspace) ==> r == original
    ensures Positive(r) && FitsIn(r, workspace) && FitsIn(r, original)
    ensures Exceeds(original, workspace) ==> r.width == workspace.width || r.height == workspace.height
  {
    if !Exceeds(original, workspace) then original
    else
      var kw := workspace.width / original.width;
      var kh := workspace.height / original.height;
      var k := if kw <= kh then kw else kh;
      ShrinkStep(original, workspace, k);
      Size(original.width * k, original.height * k)
  }

  /** The fitted size keeps the image's aspect ratio. */
  lemma FitSizeKeepsRatio(original: Size, workspace: Size)
    requires Positive(original) && Positive(workspace)
    ensures SameRatio(FitSize(original, workspace), original)
  {
  }

  lemma ShrinkStep(original: Size, workspace: Size, k: real)
    requires Positive(original) && Positive(workspace) && Exceeds(original, workspace)
    requires k == workspace.width / original.width || k == workspace.height / original.height
    requires k <= workspace.width / original.width && k <= workspace.height / original.height
    ensures k > 0.0 && k < 1.0
    ensures original.width * k <= workspace.width && original.height * k <= workspace.height
    ensures original.width * k == workspace.width || original.height * k == workspace.height
  {
    assert original.width * (workspace.width / original.width) == workspace.width;
    assert original.height * (workspace.height / original.height) == workspace.height;
    if original.width > workspace.width {
      QuotientBelowOne(workspace.width, original.width);
    } else {
      QuotientBelowOne(workspace.height, original.height);
    }
  }

  lemma QuotientBelowOne(a: real, b: real)
    requires 0.0 < a < b
    ensures 0.0 < a / b < 1.0
  {
    assert (b - a) / b > 0.0;
    assert (b - a) / b == b / b - a / b;
    assert b / b == 1.0;
  }

  /** Wherever the as-written size does fit the workspace it is the corrected
      one, so the correction only changes the overflowing cases. */
  lemma AsWrittenAgreesWhenItFits(original: Size, workspace: Size)
    requires Positive(original) && Positive(workspace)
    requires FitsIn(SetSizeAsWritten(original, workspace), workspace)
    ensures SetSizeAsWritten(original, workspace) == FitSize(original, workspace)
  {
    if Exceeds(original, workspace) {
      var a := SetSizeAsWritten(original, workspace);
      var f := FitSize(original, workspace);
      FitSizeKeepsRatio(original, workspace);
      AsWrittenTouchesEdge(original, workspace);
      SameRatioSameSize(a, f, original, workspace);
    }
  }

  /** An exceeding image whose as-written size fits reaches a workspace edge:
      the kept extent is a capped one, since an uncapped kept extent would
      push the other axis past the workspace. */
  lemma AsWrittenTouchesEdge(original: Size, workspace: Size)
    requires Positive(original) && Positive(workspace) && Exceeds(original, workspace)
    requires FitsIn(SetSizeAsWritten(original, workspace), workspace)
    ensures var a := SetSizeAsWritten(original, workspace);
      a.width == workspace.width || a.height == workspace.height
  {
  }

  /** Two sizes of one ratio that both fit and both touch the workspace on
      some axis are equal. */
  lemma SameRatioSameSize(a: Size, f: Size, original: Size, workspace: Size)
    requires Positive(a) && Positive(f) && Positive(original) && Positive(workspace)
    requires SameRatio(a, original) && SameRatio(f, original)
    requires FitsIn(a, workspace) && FitsIn(f, workspace)
    requires a.width == workspace.width || a.height == workspace.height
    requires f.width == workspace.width || f.height == workspace.height
    ensures a == f
  {
    assert a.width * f.height == a.height * f.width by {
      assert a.width * original.height * f.height == a.height * original.width * f.height;
      assert f.width * original.height * a.height == f.height * original.width * a.height;
    }
  }

  /** The display size the viewer's `setSize` produces under `fit`. */
  function Display(fit: Fit, original: Size, workspace: Size): (r: Size)
    requires Positive(original) && Positive(workspace)
    ensures Positive(r) && SameRatio(r, original)
    ensures fit == AsWritten ==> r == SetSizeAsWritten(original, workspace)
    ensures fit == Corrected ==> r == FitSize(original, workspace) && FitsIn(r, workspace)
  {
    if fit == AsWritten then SetSizeAsWritten(original, workspace)
    else
      FitSizeKeepsRatio(original, workspace);
      FitSize(original, workspace)
  }

  // ---------------------------------------------------------------------
  // The offset band and its clamp
  // ---------------------------------------------------------------------

  /** The viewer state every operation below relies on: measured, loaded,
      with a non-zero scale to divide by when recentring. */
  predicate Valid(v: Viewer) {
    Positive(v.workspace) && Positive(v.original) && v.scale > 0.0
  }

  /** The lowest offset allowed for a scaled image extent `img` in a
      workspace extent `ws` (`_minAxisValue`). */
  function AxisMin(img: real, ws: real): real {
    if img < ws then 0.0 else ws - img
  }

  /** The highest offset allowed (`_maxAxisValue`). */
  function AxisMax(img: real, ws: real): real {
    if img < ws then ws - img else 0.0
  }

  predicate Within(value: real, img: real, ws: real) {
    AxisMin(img, ws) <= value <= AxisMax(img, ws)
  }

  /**
   * The saturation `Math.min(max, Math.max(value, min))`. An image narrower
   * than the workspace may float anywhere inside it; a wider one may be
   * dragged until either of its edges meets the workspace edge, never further.
   */
  function Saturate(value: real, img: real, ws: real): (r: real)
    ensures Within(r, img, ws)
    ensures img < ws ==> 0.0 <= r <= ws - img
    ensures img >= ws ==> ws - img <= r <= 0.0
    ensures Within(value, img, ws) ==> r == value
    ensures value < AxisMin(img, ws) ==> r == AxisMin(img, ws)
    ensures value > AxisMax(img, ws) ==> r == AxisMax(img, ws)
  {
    var lo := AxisMin(img, ws);
    var hi := AxisMax(img, ws);
    var atLeastLo := if value > lo then value else lo;
    if hi < atLeastLo then hi else atLeastLo
  }

  /** The extent of the scaled image along one axis. */
  function ImageExtent(v: Viewer, axis: Axis): real {
    v.display.Along(axis) * v.scale
  }

  predicate InBand(v: Viewer, axis: Axis, value: real) {
    Within(value, ImageExtent(v, axis), v.workspace.Along(axis))
  }

  /** Both coordinates of the offset lie in their bands. */
  predicate OffsetInBand(v: Viewer) {
    InBand(v, X, v.offset.x) && InBand(v, Y, v.offset.y)
  }

  /** The invariant the viewer keeps once the image has loaded. */
  predicate Consistent(v: Viewer) {
    && Valid(v)
    && v.display == Display(v.fit, v.original, v.workspace)
    && OffsetInBand(v)
    && Filters.AllKnown(v.history)
  }

  /** `clampAxis`: saturate the given value, or the current offset on that
      axis when none is given, into the axis band. */
  function ClampAxis(v: Viewer, axis: Axis, value: Option<real>): (r: real)
    ensures InBand(v, axis, r)
    ensures InBand(v, axis, value.GetOr(v.offset.Along(axis))) ==> r == value.GetOr(v.offset.Along(axis))
  {
    Saturate(value.GetOr(v.offset.Along(axis)), ImageExtent(v, axis), v.workspace.Along(axis))
  }

  /** Clamping is idempotent: a clamped value is left where it is. */
  lemma ClampAxisIdempotent(v: Viewer, axis: Axis, value: Option<real>)
    ensures ClampAxis(v, axis, Some(ClampAxis(v, axis, value))) == ClampAxis(v, axis, value)
  {
  }

  /** With no value, the axis's current offset is what gets clamped. */
  lemma ClampAxisDefaultsToOffset(v: Viewer, axis: Axis)
    ensures ClampAxis(v, axis, None) == ClampAxis(v, axis, Some(v.offset.Along(axis)))
  {
  }

  /** `clamp`: both axes, each from its given value or the current offset. */
  function Clamp(v: Viewer, x: Option<real>, y: Option<real>): (r: Viewer)
    ensures r == v.(offset := r.offset)
    ensures OffsetInBand(r)
    ensures InBand(v, X, x.GetOr(v.offset.x)) ==> r.offset.x == x.GetOr(v.offset.x)
    ensures InBand(v, Y, y.GetOr(v.offset.y)) ==> r.offset.y == y.GetOr(v.offset.y)
  {
    v.(offset := Point(ClampAxis(v, X, x), ClampAxis(v, Y, y)))
  }

  /** Two states with the same workspace, display and scale clamp alike. */
  lemma SameBand(a: Viewer, b: Viewer, axis: Axis, t: real)
    requires a.workspace == b.workspace && a.display == b.display && a.scale == b.scale
    ensures ClampAxis(a, axis, Some(t)) == ClampAxis(b, axis, Some(t))
    ensures InBand(a, axis, t) <==> InBand(b, axis, t)
  {
    assert ImageExtent(a, axis) == ImageExtent(b, axis);
  }

  /** An offset already in band survives `clamp()` with no arguments. */
  lemma ClampKeepsBandedOffset(v: Viewer)
    requires OffsetInBand(v)
    ensures Clamp(v, None, None) == v
  {
  }

  // ---------------------------------------------------------------------
  // Zoom about the workspace centre
  // ---------------------------------------------------------------------

  /** Where a zoom from scale `from` to scale `to` should move an offset `o`
      so that the point under the workspace centre `ws / 2` stays there. */
  function AboutCentre(ws: real, o: real, from: real, to: real): real
    requires from != 0.0
  {
    ws / 2.0 + (o - ws / 2.0) * to / from
  }

  /**
   * `setCenterAxis`: the offset recentred after `prevScale` became `scale`,
   * computed through the ratio of the offset's distance from the centre to
   * half the previously scaled workspace.
   */
  function SetCenterAxis(v: Viewer, axis: Axis): (r: real)
    requires v.workspace.Along(axis) != 0.0 && v.prevScale != 0.0
    ensures r == AboutCentre(v.workspace.Along(axis), v.offset.Along(axis), v.prevScale, v.scale)
    ensures v.scale == v.prevScale ==> r == v.offset.Along(axis)
  {
    var ws := v.workspace.Along(axis);
    var centre := ws * 0.5;
    var offsetCentre := v.offset.Along(axis) - centre;
    var offsetRatio := offsetCentre / (ws * v.prevScale / 2.0);
    RecentreStep(ws, offsetCentre, v.prevScale, v.scale);
    (ws * v.scale) * offsetRatio / 2.0 + centre
  }

  lemma RecentreStep(ws: real, d: real, from: real, to: real)
    requires ws != 0.0 && from != 0.0
    ensures (ws * to) * (d / (ws * from / 2.0)) / 2.0 == d * to / from
  {
    var k := d / (ws * from / 2.0);
    assert k * (ws * from / 2.0) == d;
    assert (ws * to) * k / 2.0 * from == d * to;
  }

  /** The fraction of the scaled image (of unscaled extent `extent`) lying
      left of (or above) the workspace centre. */
  function CentreFraction(ws: real, o: real, extent: real, scale: real): real
    requires extent * scale != 0.0
  {
    (ws / 2.0 - o) / (extent * scale)
  }

  /** Zooming about the centre is anchor-invariant: the same point of the
      image stays under the workspace centre. */
  lemma AboutCentreKeepsAnchor(ws: real, o: real, extent: real, from: real, to: real)
    requires extent != 0.0 && from != 0.0 && to != 0.0
    ensures extent * from != 0.0 && extent * to != 0.0
    ensures CentreFraction(ws, AboutCentre(ws, o, from, to), extent, to)
         == CentreFraction(ws, o, extent, from)
  {
    var o' := AboutCentre(ws, o, from, to);
    assert ws / 2.0 - o' == (ws / 2.0 - o) * to / from;
    var lhs := (ws / 2.0 - o') / (extent * to);
    assert lhs * (extent * to) == (ws / 2.0 - o) * to / from;
    assert lhs * extent * from == ws / 2.0 - o;
  }

  /** Recentring without a change of scale moves nothing. */
  lemma AboutCentreSameScale(ws: real, o: real, s: real)
    requires s != 0.0
    ensures AboutCentre(ws, o, s, s) == o
  {
    assert (o - ws / 2.0) * s / s == o - ws / 2.0;
  }

  /** Zooming there and back again returns to the starting offset. */
  lemma AboutCentreRoundTrip(ws: real, o: real, from: real, to: real)
    requires from != 0.0 && to != 0.0
    ensures AboutCentre(ws, AboutCentre(ws, o, from, to), to, from) == o
  {
    var d := o - ws / 2.0;
    assert d * to / from * from / to == d;
  }

  // ---------------------------------------------------------------------
  // zoom
  // ---------------------------------------------------------------------

  /** The guard of `zoom` fails: same scale and both explicit targets equal
      to the current offset. An omitted target always differs from the
      offset (`undefined !== number`). */
  predicate Unmoved(v: Viewer, amount: real, x: Option<real>, y: Option<real>) {
    v.scale == amount && x == Some(v.offset.x) && y == Some(v.offset.y)
  }

  /** The offset `zoom` aims for on an axis before clamping: the explicit
      target when given, else the recentred offset. */
  function ZoomTarget(v: Viewer, amount: real, axis: Axis, target: Option<real>): real
    requires Valid(v)
  {
    target.GetOr(AboutCentre(v.workspace.Along(axis), v.offset.Along(axis), v.scale, amount))
  }

  /** Redrawing paints the image and replays the filter history. The replay
      keeps the number and names of the history's entries
      (Filters.ApplyFilterHistory), so a redraw only counts one more paint. */
  function Draw(v: Viewer): (r: Viewer)
    ensures r.paints == v.paints + 1 && r.(paints := v.paints) == v
  {
    v.(paints := v.paints + 1)
  }

  /**
   * `zoom(amount, x, y)`: remember the old scale, take the new one and, unless
   * nothing would move, resize, recentre about the workspace centre, let the
   * explicit targets override, clamp and redraw.
   */
  function Zoom(v: Viewer, amount: real, x: Option<real>, y: Option<real>): (r: Viewer)
    requires Valid(v)
    ensures r.scale == amount && r.prevScale == v.scale
    ensures r.options == v.options && r.fit == v.fit && r.workspace == v.workspace && r.original == v.original
    ensures r.history == v.history && r.dragging == v.dragging && r.drag == v.drag
    ensures Unmoved(v, amount, x, y) ==> r == v.(prevScale := v.scale)
    ensures !Unmoved(v, amount, x, y) ==>
      && r.paints == v.paints + 1
      && r.display == Display(v.fit, v.original, v.workspace)
      && OffsetInBand(r)
      && r.offset.x == ClampAxis(r, X, Some(ZoomTarget(v, amount, X, x)))
      && r.offset.y == ClampAxis(r, Y, Some(ZoomTarget(v, amount, Y, y)))
  {
    var v1 := v.(prevScale := v.scale, scale := amount);
    if Unmoved(v, amount, x, y) then v1
    else
      var v2 := v1.(display := Display(v1.fit, v1.original, v1.workspace));
      var centred := Point(SetCenterAxis(v2, X), SetCenterAxis(v2, Y));
      var v3 := v2.(offset := Point(x.GetOr(centred.x), y.GetOr(centred.y)));
      var r := Draw(Clamp(v3, Some(v3.offset.x), Some(v3.offset.y)));
      SameBand(v3, r, X, v3.offset.x);
      SameBand(v3, r, Y, v3.offset.y);
      r
  }

  /** A zoom to a positive scale keeps the viewer consistent. */
  lemma ZoomKeepsConsistent(v: Viewer, amount: real, x: Option<real>, y: Option<real>)
    requires Consistent(v) && amount > 0.0
    ensures Consistent(Zoom(v, amount, x, y))
  {
    var r := Zoom(v, amount, x, y);
    if Unmoved(v, amount, x, y) {
      SameBand(v, r, X, v.offset.x);
      SameBand(v, r, Y, v.offset.y);
    }
  }

  /** Zooming to the current scale with in-band targets puts the offset
      exactly on them. */
  lemma ZoomInPlace(v: Viewer, p: Point)
    requires Consistent(v) && InBand(v, X, p.x) && InBand(v, Y, p.y)
    ensures var r := Zoom(v, v.scale, Some(p.x), Some(p.y));
      r.offset == p && r.scale == v.scale && Consistent(r)
  {
    var r := Zoom(v, v.scale, Some(p.x), Some(p.y));
    ZoomKeepsConsistent(v, v.scale, Some(p.x), Some(p.y));
    if !Unmoved(v, v.scale, Some(p.x), Some(p.y)) {
      SameBand(v, r, X, p.x);
      SameBand(v, r, Y, p.y);
    }
  }

  /** Without explicit targets the guard always passes: re-zooming to the
      current scale redraws, and leaves a banded offset where it is. */
  lemma ZoomWithoutTargetRedraws(v: Viewer)
    requires Consistent(v)
    ensures Zoom(v, v.scale, None, None) == Draw(v.(prevScale := v.scale))
  {
    var r := Zoom(v, v.scale, None, None);
    AboutCentreSameScale(v.workspace.width, v.offset.x, v.scale);
    AboutCentreSameScale(v.workspace.height, v.offset.y, v.scale);
    SameBand(v, r, X, v.offset.x);
    SameBand(v, r, Y, v.offset.y);
  }

  // ---------------------------------------------------------------------
  // Loading
  // ---------------------------------------------------------------------

  /**
   * The initial offset on one axis of a display extent `e` at scale `s`:
   * below scale 1 the scaled image is centred within the display extent,
   * otherwise it stays at the origin.
   */
  function CentreOffset(e: real, s: real): real {
    if s < 1.0 then (e - e * s) * 0.5 else 0.0
  }

  /** Below scale 1 the centre of the scaled image is the centre of the
      display extent. */
  lemma CentreOffsetCentres(e: real, s: real)
    requires s < 1.0
    ensures CentreOffset(e, s) + e * s / 2.0 == e / 2.0
  {
  }

  /** With a display no larger than the workspace, the initial offset lies in
      the band. */
  lemma CentreOffsetInBand(e: real, ws: real, s: real)
    requires 0.0 < e <= ws && s > 0.0
    ensures Within(CentreOffset(e, s), e * s, ws)
  {
    if s < 1.0 {
      assert e * s < e * 1.0;
    }
  }

  /** Whenever the display fits the workspace, the load-time offset is in
      band on both axes. */
  lemma CentredOffsetInBand(v: Viewer)
    requires Valid(v) && Positive(v.display) && FitsIn(v.display, v.workspace)
    requires v.offset == Point(CentreOffset(v.display.width, v.scale), CentreOffset(v.display.height, v.scale))
    ensures OffsetInBand(v)
  {
    CentredAxisInBand(v, X);
    CentredAxisInBand(v, Y);
  }

  lemma CentredAxisInBand(v: Viewer, axis: Axis)
    requires Valid(v) && FitsIn(v.display, v.workspace) && Positive(v.display)
    requires v.offset.Along(axis) == CentreOffset(v.display.Along(axis), v.scale)
    ensures InBand(v, axis, v.offset.Along(axis))
  {
    var e := v.display.Along(axis);
    var ws := v.workspace.Along(axis);
    assert 0.0 < e <= ws;
    CentreOffsetInBand(e, ws, v.scale);
    assert ImageExtent(v, axis) == e * v.scale;
  }

  /**
   * `init` then `_onLoad`: the scale starts at `minScale`, `setSize` picks
   * the display size and the offset is centred (CentreOffset) without a
   * clamp. The image is then drawn once.
   */
  function OnLoad(options: Options, fit: Fit, workspace: Size, original: Size): (r: Viewer)
    requires Positive(workspace) && Positive(original) && options.minScale > 0.0
    ensures r.options == options && r.fit == fit && r.workspace == workspace && r.original == original
    ensures r.display == Display(fit, original, workspace)
    ensures r.scale == options.minScale && r.prevScale == r.scale
    ensures r.history == [] && !r.dragging && r.paints == 1
    ensures r.offset == Point(CentreOffset(r.display.width, r.scale), CentreOffset(r.display.height, r.scale))
  {
    var display := Display(fit, original, workspace);
    var s := options.minScale;
    var offset := Point(CentreOffset(display.width, s), CentreOffset(display.height, s));
    Viewer(options, fit, workspace, original, display, s, s, offset,
           false, Point(0.0, 0.0), [], 1)
  }

  /** A freshly loaded viewer is consistent whenever its display fits the
      workspace, and so always under the corrected fit. */
  lemma LoadKeepsConsistent(options: Options, fit: Fit, workspace: Size, original: Size)
    requires Positive(workspace) && Positive(original) && options.minScale > 0.0
    ensures var r := OnLoad(options, fit, workspace, original);
      (FitsIn(r.display, workspace) ==> Consistent(r)) && (fit == Corrected ==> Consistent(r))
  {
    var r := OnLoad(options, fit, workspace, original);
    if FitsIn(r.display, workspace) {
      CentredOffsetInBand(r);
    }
  }

  /** The default options on a 2000x1000 image in an 800x600 workspace: the
      source's display is 800x400 and the image, at scale 0.7, sits at
      (120, 60). */
  lemma LoadExample()
    ensures var r := OnLoad(Defaults, AsWritten, Size(800.0, 600.0), Size(2000.0, 1000.0));
      r.display == Size(800.0, 400.0) && r.scale == 0.7 && r.offset == Point(120.0, 60.0)
      && Consistent(r)
  {
    assert 800.0 / (2000.0 / 1000.0) == 400.0;
    LoadKeepsConsistent(Defaults, AsWritten, Size(800.0, 600.0), Size(2000.0, 1000.0));
  }

  /** The source's load of a 1000x3000 image into an 800x600 workspace: the
      display overflows to 800x2400, the unclamped centred offset is
      (120, 360), and y = 360 lies outside the band [-1080, 0]. */
  lemma LoadLeavesBand()
    ensures var r := OnLoad(Defaults, AsWritten, Size(800.0, 600.0), Size(1000.0, 3000.0));
      r.display == Size(800.0, 2400.0) && r.offset == Point(120.0, 360.0)
      && !InBand(r, Y, r.offset.y) && !Consistent(r)
  {
    SetSizeCanOverflow();
  }

  // ---------------------------------------------------------------------
  // Dragging
  // ---------------------------------------------------------------------

  function PointerDown(v: Viewer, p: Point): (r: Viewer)
    ensures r.dragging && r.drag == p
    ensures r == v.(dragging := true, drag := p)
  {
    v.(dragging := true, drag := p)
  }

  /**
   * `onPointerMove`: while dragging, move the offset by the pointer's motion
   * since the last event, clamp it and redraw; otherwise nothing happens.
   */
  function PointerMove(v: Viewer, p: Point): (r: Viewer)
    requires Positive(v.original) && Positive(v.workspace)
    ensures !v.dragging ==> r == v
    ensures v.dragging ==>
      r == v.(display := Display(v.fit, v.original, v.workspace), offset := r.offset,
              drag := p, paints := v.paints + 1)
    ensures v.dragging ==>
      var moved := Point(v.offset.x + p.x - v.drag.x, v.offset.y + p.y - v.drag.y);
      && r.drag == p && r.paints == v.paints + 1
      && r.scale == v.scale && r.history == v.history && r.dragging
      && OffsetInBand(r)
      && r.offset.x == ClampAxis(r, X, Some(moved.x))
      && r.offset.y == ClampAxis(r, Y, Some(moved.y))
    ensures Consistent(v) ==> Consistent(r)
  {
    if !v.dragging then v
    else
      var v1 := v.(display := Display(v.fit, v.original, v.workspace));
      var v2 := v1.(offset := Point(v1.offset.x + p.x - v1.drag.x, v1.offset.y + p.y - v1.drag.y),
                    drag := p);
      var r := Draw(Clamp(v2, None, None));
      SameBand(v2, r, X, v2.offset.x);
      SameBand(v2, r, Y, v2.offset.y);
      r
  }

  /** `onPointerUp`: a final move to the release point, then the drag ends. */
  function PointerUp(v: Viewer, p: Point): (r: Viewer)
    requires Positive(v.original) && Positive(v.workspace)
    ensures !v.dragging ==> r == v
    ensures v.dragging ==> r == PointerMove(v, p).(dragging := false)
    ensures !r.dragging
  {
    if v.dragging then PointerMove(v, p).(dragging := false) else v
  }

  /** Within the band, dragging moves the image exactly with the pointer. */
  lemma DragFollowsPointer(v: Viewer, p: Point)
    requires Consistent(v) && v.dragging
    requires InBand(v, X, v.offset.x + p.x - v.drag.x) && InBand(v, Y, v.offset.y + p.y - v.drag.y)
    ensures PointerMove(v, p).offset == Point(v.offset.x + p.x - v.drag.x, v.offset.y + p.y - v.drag.y)
  {
    var r := PointerMove(v, p);
    SameBand(v, r, X, v.offset.x + p.x - v.drag.x);
    SameBand(v, r, Y, v.offset.y + p.y - v.drag.y);
  }

  // ---------------------------------------------------------------------
  // The zoom slider
  // ---------------------------------------------------------------------

  /** The scale the slider's `onChange` asks for at `percents`. */
  function SliderScale(o: Options, percents: real): (r: real)
    ensures percents == 0.0 ==> r == o.minScale
    ensures percents == 100.0 ==> r == o.maxScale
    ensures o.minScale <= o.maxScale && 0.0 <= percents <= 100.0 ==> o.minScale <= r <= o.maxScale
  {
    var range := o.maxScale - o.minScale;
    range / 100.0 * percents + o.minScale
  }

  /** The mapping never decreases when `maxScale >= minScale`. */
  lemma SliderScaleMonotone(o: Options, p: real, q: real)
    requires o.minScale <= o.maxScale && p <= q
    ensures SliderScale(o, p) <= SliderScale(o, q)
  {
    var k := (o.maxScale - o.minScale) / 100.0;
    assert k >= 0.0;
    assert k * (q - p) >= 0.0;
    assert SliderScale(o, q) - SliderScale(o, p) == k * (q - p);
  }

  /** The percent a scale corresponds to: the inverse of SliderScale. */
  function PercentOfScale(o: Options, s: real): real
    requires o.minScale != o.maxScale
  {
    (s - o.minScale) * 100.0 / (o.maxScale - o.minScale)
  }

  lemma SliderScaleRoundTrip(o: Options, p: real)
    requires o.minScale != o.maxScale
    ensures PercentOfScale(o, SliderScale(o, p)) == p
  {
    var range := o.maxScale - o.minScale;
    assert SliderScale(o, p) - o.minScale == range / 100.0 * p;
    assert range / 100.0 * p * 100.0 == range * p;
  }

  /** The slider's change handler: zoom to the mapped scale with no target,
      which always passes the guard, so it redraws and clamps. */
  function OnSliderChange(v: Viewer, percents: real): (r: Viewer)
    requires Valid(v)
    ensures r.scale == SliderScale(v.options, percents) && r.prevScale == v.scale
    ensures r.paints == v.paints + 1 && OffsetInBand(r)
    ensures r == Zoom(v, SliderScale(v.options, percents), None, None)
  {
    Zoom(v, SliderScale(v.options, percents), None, None)
  }

  /** A slider change within [0, 100] keeps a consistent viewer consistent. */
  lemma SliderChangeKeepsConsistent(v: Viewer, percents: real)
    requires Consistent(v) && 0.0 <= percents <= 100.0 && 0.0 < v.options.minScale <= v.options.maxScale
    ensures Consistent(OnSliderChange(v, percents))
  {
    ZoomKeepsConsistent(v, SliderScale(v.options, percents), None, None);
  }

  // ---------------------------------------------------------------------
  // Filters
  // ---------------------------------------------------------------------

  /** `applyFilter` on the viewer: only the history can change, and only by
      the one entry recorded for a known filter. */
  function ApplyFilter(v: Viewer, name: string, args: seq<Filters.Arg>, noHistory: bool)
    : (r: Result<Viewer, Filters.Error>)
    ensures r.Err? <==> !Filters.Known(name)
    ensures r.Ok? ==> r.value == v.(history := r.value.history)
    ensures r.Ok? ==> r.value.history == if noHistory then v.history else v.history + [Filters.Entry(name, args)]
  {
    match Filters.ApplyFilter(v.history, name, args, noHistory)
    case Err(e) => Err(e)
    case Ok(h) =>
      assert noHistory ==> h == v.history;
      assert !noHistory ==> h == v.history + [Filters.Entry(name, args)];
      Ok(v.(history := h))
  }

  /** A successful filter keeps a consistent viewer consistent. */
  lemma ApplyFilterKeepsConsistent(v: Viewer, name: string, args: seq<Filters.Arg>, noHistory: bool)
    requires Consistent(v) && ApplyFilter(v, name, args, noHistory).Ok?
    ensures Consistent(ApplyFilter(v, name, args, noHistory).value)
  {
    var h := Filters.ApplyFilter(v.history, name, args, noHistory).value;
    Filters.ApplyFilterKeepsKnown(v.history, name, args, noHistory);
    NewHistoryConsistent(v, h);
  }

  lemma NewHistoryConsistent(v: Viewer, h: seq<Filters.Entry>)
    requires Consistent(v) && Filters.AllKnown(h)
    ensures Consistent(v.(history := h))
  {
    SameBand(v, v.(history := h), X, v.offset.x);
    SameBand(v, v.(history := h), Y, v.offset.y);
  }
}

=== FILE: wrappers.dfy ===
/** Failure-carrying results shared by every module of the viewer model. */
module Wrappers {

  /** A value that may be absent: JavaScript's `undefined` argument. */
  datatype Option<+T> = None | Some(value: T) {
    function GetOr(default: T): T {
      match this
      case Some(v) => v
      case None => default
    }
  }

  /** The outcome of an operation that can throw. */
  datatype Result<+R, +E> = Ok(value: R) | Err(error: E)
}
